=== FILE: README.md ===
# Catalogue scraper: a Dafny model of its crawl and extraction logic

This project models the decision logic of `Scrapping_project/Scrapping.py`. That script crawls a paginated product catalogue and extracts listing and detail data from the saved pages. It has five stages:

1. **Fetch with retry** (`fetchHTMLContent`). Up to three browser attempts are made per URL.
2. **Pagination walk** (`fetchNextPageDetails`, `fetchAllPages`). Each listing page is fetched and saved as `{outputDir}{i}.html`. The walk then follows the `a.next` link inside `div.pagination` until a page has none.
3. **Listing extraction** (`extractContentFromPages`). Six fields are taken from each `div.product-details` block. Missing elements get default texts. The price swap quirk is kept. Records are numbered 1..N densely across all pages. The pass is all-or-nothing.
4. **Column cleaning** (`generateProductDetails`, up to the CSV write). In the four numeric columns, every character other than `.`, a digit or `_` is deleted. The columns are then renamed.
5. **Product pass** (`fetchAllProductInformation`, `extractProductInformation`). Each product URL is fetched and saved as `{outputDir}P-{i}.html`. This fetch is all-or-nothing. Description, specification and reviews are then extracted from each page. A page that fails is skipped, and the numbering closes over it.

The browser and the HTML parser are not modelled. They appear only as the values they return:

- A `Dom.Doc` records what the script's `find`/`find_all` calls return for one page. An `Option` stands for "found or `None`", and a sequence for `find_all`.
- A browser attempt is reduced to its outcome, `Fetcher.Attempt`.
- The crawl passes take a fetch capability `string -> Option<Doc>`. `Fetcher.Fetch` builds one from per-URL attempt outcomes. The walk and the product pass look pages up by the URL they hold. `Fetcher.Site` is the capability that puts `absoluteUrl` in front, as the script's f-strings do.
- The walk is given the naming of its saved files as a function from page number to path. `fetchAllPages` uses `Pagination.ListingNames`, that is `{outputDir}{i}.html`.
- The output directory is a map from path to saved page (`Dom.Store`). Saving a page updates this map. Opening a path that is not in the map is the `open()` failure the script can raise.

Every raise that depends on a page's content or on an earlier stage's result, and that the script then catches or lets escape, is an explicit `None` or an explicit error variant:

- A lookup inside a `None` element.
- `a['href']` on an anchor that has no `href`.
- Iterating the `None` that an earlier stage returned.

## Model

| member | source | states |
|---|---|---|
| Fetcher.FetchHTMLContent | Scrapping_project/Scrapping.py:61-87 | At most three attempts. The result is the content of the first attempt that loads, or `None` exactly when none of the first three loads. No attempt follows a success. One delay is slept for each attempt that raised, the last one included. |
| Fetcher.Fetch | Scrapping_project/Scrapping.py:51-87 | Fetching a URL gives a page exactly when one of its first three attempts loads. |
| Fetcher.Site | Scrapping_project/Scrapping.py:207 | Fetching a relative URL against the site gives a page exactly when one of the first three attempts on `absoluteUrl + relativeUrl` loads. |
| Fetcher.AttemptsFrom | Scrapping_project/Scrapping.py:64-85 | From attempt `k` on: the loaded content is that of the last attempt made, no earlier attempt loaded, and the delays slept equal the raised attempts. |
| Fetcher.TwoFailuresThenLoad | Scrapping_project/Scrapping.py:64-85 | Raise, raise, load: the third attempt's content after exactly two delays. |
| Fetcher.UrlChangesCostNoDelay | Scrapping_project/Scrapping.py:73-80 | An attempt whose URL check fails without raising is retried with no delay. |
| Fetcher.AllRaise | Scrapping_project/Scrapping.py:83-87 | Three raised attempts give `None` and three delays. |
| Fetcher.FirstAttemptLoads | Scrapping_project/Scrapping.py:76-80 | A first-attempt load costs one attempt and no delay. |
| Fetcher.LaterLoadsIgnored | Scrapping_project/Scrapping.py:64 | A load on a fourth attempt is never reached. |
| Pagination.NextPageDetails | Scrapping_project/Scrapping.py:175-177 | The next relative URL is exactly the `href` of `a.next`. The walk ends exactly when `a.next` is absent. A missing `div.pagination`, or an `a.next` without `href`, raises. |
| Pagination.WalkFrom | Scrapping_project/Scrapping.py:206-220 | The walk visits at most `fuel` pages and starts at the given relative URL. A finished walk saved every page it visited. At most the last visited page is unsaved. |
| Pagination.FetchAllPages | Scrapping_project/Scrapping.py:182-230 | With fuel, the crawl starts at the given relative URL. It saves at most the pages it visits. Saved file k is `{outputDir}{k+1}.html` and holds the page fetched for visited URL k. |
| Pagination.ListingPath | Scrapping_project/Scrapping.py:213 | A listing file name starts with the output directory and ends in `.html`, with at least one character between them. |
| Pagination.ListingPathDecodes | Scrapping_project/Scrapping.py:213 | Between the directory and `.html`, a listing file name is all digits, and they read back as the page number. |
| Pagination.WalkStep | Scrapping_project/Scrapping.py:207-220 | On a page whose next link is `next`, the walk saves the page and continues from `next` with the following index. |
| Pagination.WalkLinks | Scrapping_project/Scrapping.py:207-215 | Every visited page except the last was fetched, and its `a.next` is the next visited URL. |
| Pagination.WalkSavesFirst | Scrapping_project/Scrapping.py:207-216 | The first saved file is named for the starting page number and holds the page fetched for the starting URL. |
| Pagination.WalkGoesOn | Scrapping_project/Scrapping.py:206-220 | A walk that saved more than one page fetched its first page, which has an `a.next` link, so the walk went on from it. |
| Pagination.WalkNamesAt | Scrapping_project/Scrapping.py:213-216 | The k-th saved file is named for page `index + k`. |
| Pagination.WalkFetchedAt | Scrapping_project/Scrapping.py:207-216 | The k-th saved file holds the page fetched for the k-th visited URL. |
| Pagination.WalkSaves | Scrapping_project/Scrapping.py:213-216 | Every saved file is named for its page number and holds the page fetched for its visited URL. |
| Pagination.WalkEnding | Scrapping_project/Scrapping.py:206-215 | A finished walk's last page has no `a.next`. A fetch failure ends the walk naming the full URL, with that page unsaved. Running out of fuel happens only after `fuel` saved pages, the last of which still had an `a.next` to follow. |
| Pagination.WalkBreaks | Scrapping_project/Scrapping.py:213-215 | A page without `div.pagination`, or with an `a.next` that has no `href`, ends the walk. The abandon names that page's saved file. |
| Pagination.StopsOnMissingPagination | Scrapping_project/Scrapping.py:213-215 | For every walk: if the last visited page was fetched and has no `div.pagination`, the walk was abandoned for that reason, naming that page's saved file. |
| Pagination.StopsOnNextWithoutHref | Scrapping_project/Scrapping.py:213-215 | For every walk: if the last visited page was fetched and its `a.next` has no `href`, the walk was abandoned for that reason, naming that page's saved file. |
| Pagination.ListingPathInjective | Scrapping_project/Scrapping.py:213 | Different page numbers give different listing file names. |
| Pagination.FetchAllPagesSavesDistinctFiles | Scrapping_project/Scrapping.py:213-214 | Page k is saved to `{outputDir}{k}.html`, so no saved page overwrites another. |
| Pagination.Response | Scrapping_project/Scrapping.py:226-230 | The returned list is the saved paths in order when the walk finished, and `None` when it was abandoned. |
| Pagination.ResponseIsAllOrNothing | Scrapping_project/Scrapping.py:197-230 | A finished crawl returns `[{outputDir}1.html, …, {outputDir}N.html]`, where N is the number of pages visited. An abandoned crawl returns `None`, never a prefix. |
| Pagination.WalkFollowsChain | Scrapping_project/Scrapping.py:206-220 | On a chain of linked pages whose last page has no `a.next`, the walk visits exactly the chain and finishes. |
| Pagination.WalkAbortsOnFailedFetch | Scrapping_project/Scrapping.py:207-211 | If a page on the chain cannot be fetched, the walk is abandoned at that page, naming its URL. |
| Listing.ExtractProduct | Scrapping_project/Scrapping.py:259-275 | The block raises exactly when the title div or its `h4` is missing, or when its anchor has no `href`. A missing anchor gives `href = None` and `name = "No Name"`. With a struck price, `oPrice` is that price and `dPrice` is the first `span.money` text (default `"$0.00 USD"`). Without one, `oPrice` is the first price text and `dPrice` is `"$0.00 USD"`. Missing rating and review texts become `"0.0 star rating"` and `"0 Reviews"`. |
| Listing.ExtractAll | Scrapping_project/Scrapping.py:258-279 | The records of all blocks, one per block in order. The result is `None` exactly when some block raises. |
| Listing.ExtractAllAppend | Scrapping_project/Scrapping.py:258-279 | Extracting two runs of blocks gives the two extractions joined. |
| Listing.ExtractContentFromPages | Scrapping_project/Scrapping.py:245-286 | The pass returns `None` unless a list is given, every page opens and no block raises. Otherwise the keys run densely 1..N over all blocks, and record k is block k's. |
| Listing.ExtractNextPage | Scrapping_project/Scrapping.py:251-279 | Adding one page appends its blocks' records. Their keys continue from where the earlier pages stopped. |
| Listing.DefaultRecord | Scrapping_project/Scrapping.py:269-275 | A block with an intact title and no optional element gives the full default record. |
| Listing.PriceSwap | Scrapping_project/Scrapping.py:271-273 | Without a struck price, the shown price lands in `oPrice`, and `dPrice` is the zero sentinel. |
| Listing.StruckPriceIsOriginal | Scrapping_project/Scrapping.py:265-273 | Struck `$45.00 USD` with shown `$30.00 USD` gives `oPrice = $45.00 USD` and `dPrice = $30.00 USD`. |
| Listing.EmptyStruckIsNoStruck | Scrapping_project/Scrapping.py:265-266 | A `del` without `span.money` behaves as no struck price. |
| Export.KeepNumeric | Scrapping_project/Scrapping.py:307 | The deletion keeps only `.`, digits and `_`. It never lengthens the text. |
| Export.KeepNumericAppend | Scrapping_project/Scrapping.py:307 | The deletion works character by character: the result for `s + t` is the result for `s` followed by the result for `t`. So kept characters keep their order. |
| Export.KeepNumericChar | Scrapping_project/Scrapping.py:307 | A single character survives exactly when it is `.`, a digit or `_`. |
| Export.KeepNumericFixes | Scrapping_project/Scrapping.py:307 | Text made only of kept characters is unchanged. |
| Export.KeepNumericDrops | Scrapping_project/Scrapping.py:307 | Text with no kept character becomes empty. |
| Export.StripLeft | Scrapping_project/Scrapping.py:307 | Only leading whitespace is dropped. What remains is a suffix of the text and does not start with whitespace. |
| Export.StripRight | Scrapping_project/Scrapping.py:307 | Only trailing whitespace is dropped. What remains is a prefix of the text and does not end with whitespace. |
| Export.Strip | Scrapping_project/Scrapping.py:307 | A non-empty result neither starts nor ends with whitespace. Text that already does neither is unchanged. |
| Export.CleanNumeric | Scrapping_project/Scrapping.py:306-307 | Cleaning a cell gives exactly its kept characters, so the `strip()` after the deletion changes nothing. |
| Export.ToRow | Scrapping_project/Scrapping.py:306-312 | `href` and `name` pass through as `URL` and `Name`. The four numeric columns are exactly the kept characters of `dPrice`, `oPrice`, `rating` and `review`. |
| Export.CleanIdempotent | Scrapping_project/Scrapping.py:306-307 | Cleaning twice is cleaning once. |
| Export.CleanFixesKept | Scrapping_project/Scrapping.py:306-307 | Text made only of `.`, digits and `_` is left unchanged by the cleaning. |
| Export.CleanPriceExample | Scrapping_project/Scrapping.py:307 | `"$45.00 USD"` becomes `"45.00"`. |
| Export.KeepAmountDropCode | Scrapping_project/Scrapping.py:307 | An amount of kept characters followed by a code with none keeps exactly the amount. |
| Export.CleanThousandsExample | Scrapping_project/Scrapping.py:307 | `"$1,234.56 USD"` becomes `"1234.56"`. |
| Export.CleanDefaultPrice | Scrapping_project/Scrapping.py:271 | The default price cleans to `"0.00"`. |
| Export.CleanDefaultRating | Scrapping_project/Scrapping.py:274 | The default rating cleans to `"0.0"`. |
| Export.CleanDefaultReviews | Scrapping_project/Scrapping.py:275 | The default review count cleans to `"0"`. |
| Export.GenerateProductDetails | Scrapping_project/Scrapping.py:303-312 | Raises on `None` or on an empty record set. Otherwise there is one row per record in insertion order, under the renamed columns. `href` and `name` pass through. The four numeric columns are exactly the kept characters of the record's fields. |
| Export.CleanedRowIsClean | Scrapping_project/Scrapping.py:306-307 | A row whose four numeric cells are deletion results has cells that re-clean to themselves. |
| Export.ExportedCellsAreClean | Scrapping_project/Scrapping.py:306-307 | Re-cleaning an exported numeric cell changes nothing. |
| Export.UnstruckExportsZeroDiscount | Scrapping_project/Scrapping.py:273 | A product with no struck price exports a discount price of `0.00`. |
| Products.FetchProductsFrom | Scrapping_project/Scrapping.py:339-350 | The result is a list exactly when every URL fetches. The list then has one path per URL, the k-th being the k-th saved file. On failure fewer files than URLs were written, and they stay written. |
| Products.FetchProductsSaves | Scrapping_project/Scrapping.py:341-350 | The k-th written file is `{outputDir}P-{index+k}.html` and holds the page fetched for the k-th URL, which therefore fetched. |
| Products.FetchProductsSavedFiles | Scrapping_project/Scrapping.py:341-350 | All written files at once: file k is `{outputDir}P-{index+k}.html` and holds the page fetched for the k-th URL. |
| Products.FetchProductsStopsAtFailure | Scrapping_project/Scrapping.py:341-345 | On failure, the URL right after the written files is one that cannot be fetched. |
| Products.FetchAllProductInformation | Scrapping_project/Scrapping.py:321-357 | The pass returns a list exactly when every URL fetches. The list then has one path per URL, the k-th being the k-th saved file. Saved file k is `{outputDir}P-{k+1}.html` and holds the page fetched for URL k. |
| Products.ProductPath | Scrapping_project/Scrapping.py:347 | A product file name starts with the output directory then `P-`, and ends in `.html`, with at least one character before the suffix. |
| Products.ProductPathDecodes | Scrapping_project/Scrapping.py:347 | Between `P-` and `.html`, a product file name is all digits, and they read back as the product number. |
| Products.ProductPathInjective | Scrapping_project/Scrapping.py:347 | Different product numbers give different product file names. |
| Products.ProductFetchAllOrNothing | Scrapping_project/Scrapping.py:333-357 | If all fetches succeed, the paths are `P-1.html … P-N.html`. Otherwise the result is `None`, and some URL failed. |
| Products.ProductPathsDistinct | Scrapping_project/Scrapping.py:347-348 | No two product pages share a file. |
| Products.ExtractDetail | Scrapping_project/Scrapping.py:381-401 | A page fails exactly when the reviews container, either description block, or a block's `ul` is missing. Otherwise the description, specification and review fields are the joins of their `li` or review texts, in page order, with no separator. |
| Products.Survivors | Scrapping_project/Scrapping.py:378-405 | At most one record per page. |
| Products.SurvivorsCount | Scrapping_project/Scrapping.py:378-405 | Exactly one record per page that parses. |
| Products.ExtractProductInformation | Scrapping_project/Scrapping.py:371-412 | Fails only when no list is given. Otherwise keys are dense from 1, and the records are the surviving pages' records in order. |
| Products.ExtractNextDetailPage | Scrapping_project/Scrapping.py:400-405 | A failing page adds nothing. A parsing page adds its record under the next key. |
| Products.AllParse | Scrapping_project/Scrapping.py:378-402 | When every page parses, record k is page k's. |
| Products.NoneParse | Scrapping_project/Scrapping.py:403-405 | When no page parses, the call still succeeds, with no records. |
| Text.NatToString | Scrapping_project/Scrapping.py:213 | The decimal rendering of the page counter is never empty. |
| Text.NatToStringDigits | Scrapping_project/Scrapping.py:213 | The rendering is all digits, with no leading zero. |
| Text.DecimalRoundTrip | Scrapping_project/Scrapping.py:213 | Reading the rendering back gives the number. |
| Text.NatToStringInjective | Scrapping_project/Scrapping.py:213 | Distinct counters render differently. |
| Text.NumberedNameInjective | Scrapping_project/Scrapping.py:347 | `prefix + str(i) + suffix` determines `i`. |
| Text.Concat | Scrapping_project/Scrapping.py:388-398 | The joined text is as long as its parts together. |
| Text.ConcatSingle | Scrapping_project/Scrapping.py:396-398 | Joining a single text gives that text. |
| Text.ConcatAppend | Scrapping_project/Scrapping.py:388-398 | Joining texts inserts nothing between them. |
| Records.Number | Scrapping_project/Scrapping.py:277-279 | Record k has key `start + k` and holds the k-th value. |
| Records.NumberAppend | Scrapping_project/Scrapping.py:401-402 | Numbering a longer list extends the numbering of its prefix. |
| Records.NumberFromOneIsDense | Scrapping_project/Scrapping.py:248 | Numbering from 1 is dense and keeps the values in order. |
| Records.DenseKeys | Scrapping_project/Scrapping.py:277-279 | A dense record set's keys are exactly 1..N. |
| Records.Values | Scrapping_project/Scrapping.py:303 | `dict.values()` lists the records in insertion order. |
| Dom.SaveAll | Scrapping_project/Scrapping.py:113-122 | After the writes, the directory holds the earlier paths plus every written path. |
| Dom.SaveAllReadsBack | Scrapping_project/Scrapping.py:104-106 | With distinct paths, each written file reads back exactly what was written. |
| Dom.SaveAllKeeps | Scrapping_project/Scrapping.py:113-122 | Writes to other paths leave a file untouched. |
| Pipeline.ListingAndProductPathsDiffer | Scrapping_project/Scrapping.py:347 | A listing page name never equals a product page name. |
| Pipeline.CrawledPagesReadBack | Scrapping_project/Scrapping.py:213-216 | After a finished walk, the k-th returned path is in the directory and holds the k-th saved page, whatever the directory held before. |
| Pipeline.CrawledPagesAreFetchedPages | Scrapping_project/Scrapping.py:251-254 | So every path the listing pass is given opens, and the k-th opens to the page fetched for the k-th visited URL. |
| Pipeline.ProductPassAvoids | Scrapping_project/Scrapping.py:347 | No file of the product pass is named like a listing page. |
| Pipeline.ProductPassKeepsListingPages | Scrapping_project/Scrapping.py:347-348 | The product pass never overwrites a listing page the crawl returned: each keeps whatever the directory held under it. |
| Pipeline.FailedCrawlPropagates | Scrapping_project/Scrapping.py:296-312 | An abandoned crawl makes the listing pass answer `None`, and the export of `None` raises. So the script stops at line 455, before the product pass. |
| Pipeline.UnreachableListingAbortsCrawl | Scrapping_project/Scrapping.py:207-211 | If every attempt on a listing URL raises, the crawl started there is abandoned naming `absoluteUrl + relativeUrl`. Nothing is saved, and the crawl returns `None`. |
| Pipeline.UnreachableProductFailsDetails | Scrapping_project/Scrapping.py:339-345 | If every attempt on one product URL raises, the product pass returns `None`, and the detail pass given that `None` answers `None`. |
| Pipeline.FetchedProductsReadBack | Scrapping_project/Scrapping.py:371-405 | When every product URL fetches and no page raises, the detail pass reading the saved files back gives one record per URL. Record k+1 is the details of the page fetched for URL k. |

## Behaviour of the code worth knowing

The model follows the code.

- **Retry delays.** A failed attempt is followed by the 5-second delay only when it raised. Sometimes `driver.current_url`, read right after `get`, differs from the URL but the wait then succeeds. That attempt is retried at once, with no delay (`Attempt.UrlChanged`, `Fetcher.UrlChangesCostNoDelay`). So "two failures then a load" costs two delays only when both failures raised.
- **Anchors without `href`.** `a['href']` raises when the anchor has no `href`. In the listing pass this aborts the whole pass. In the walker it abandons the walk, after the page was saved.
- **Empty or missing record set.** `generateProductDetails` raises on `None`, at `details.values()`. It also raises on an empty record set, because the frame then has no `dPrice` column. The model answers `None` in both cases. Nothing catches this exception, so after an abandoned crawl the script stops at the export.
- **Whitespace stripping.** The cleaning includes a `strip()` after the deletion. It is modelled and never changes anything, because no kept character is whitespace.
- **Error message in the product fetch.** The message built at line 344 interpolates `relativeUrl`, not the failing `url`. In this script that name is the global bound at line 443, before the product pass runs at line 461. So the message names the listing page's relative URL, not the product URL that failed. Only a call from elsewhere, with no such global, would raise a `NameError` instead. Either way the exception is caught and the outcome is `None`, which is what the model states.
- **Price swap.** It is kept as written. Without a struck price, `dPrice` is always `"$0.00 USD"`.

## Left out

- Browser sessions, the 20-second page-load wait and `time.sleep`. An attempt is only its outcome, and delays are counted, not timed. The script also never closes a driver; sessions are not modelled.
- HTML parsing and selector matching: `BeautifulSoup`, `find` and `find_all`, and multi-valued class matching. A `Doc` holds what the queries return. For example, `firstMoney` is whatever `find('span', money)` yields, which may be the struck price itself if it comes first in the document.
- File contents and encodings, `clearOutputDir`, `to_csv`/`read_csv` and `generateProductInformationFile`. Saving a page is an update of the `Store` map.
- Failing file writes and reads. In the model a `Store` update always succeeds, and a path in the store always opens. In the script, a `saveWebPage` write that fails (line 121) inside `fetchAllPages` or `fetchAllProductInformation` is caught, and the pass answers `None` (lines 226-227 and 353-354). An `open()` at line 105 that fails on an existing file (permissions, an undecodable byte) makes `extractContentFromPages` answer `None` (lines 281-282), and in `extractProductInformation` it skips that page.
- Printing and log messages. Abandons keep only the failing URL or file.
- The top-level script at lines 438-467. This includes the CSV round trip of the URL column, which turns a `None` href into `nan` before the product pass.
- Pagination.WalkFrom: the walk has a fuel bound, because the script has no loop detection and a cyclic `next` chain never ends. `OutOfFuel` has no counterpart in the script. The crawl's response is defined only for walks that finished or were abandoned.
- Fetcher.Fetch: the fetch capability is a function of the URL. Two fetches of the same URL in one pass are modelled as giving the same outcome.

=== FILE: dom.dfy ===
/** The parts of a fetched page that the scraper's `find`/`find_all` queries look at.
    Parsing and selector matching are done by the HTML library and are not modelled:
    a `Doc` records what those queries return for one page, `None` standing for a
    query that found nothing. */
module Dom {
  import opened Wrappers

  /** An `<a>` element: its `href` attribute (absent attributes make `a['href']` raise)
      and its text. */
  datatype Anchor = Anchor(href: Option<string>, text: string)

  /** `div.product-title`, with the `h4` found inside it (if any). */
  datatype TitleDiv = TitleDiv(h4: Option<Heading>)

  /** The `h4` of a product title, with the `a` found inside it (if any). */
  datatype Heading = Heading(anchor: Option<Anchor>)

  /** A `del` element, with the text of the `span.money` inside it (if any). */
  datatype Struck = Struck(money: Option<string>)

  /** One `div.product-details` block of a listing page. `firstMoney` is the text of
      the first `span.money` anywhere in the block, in document order. */
  datatype Block = Block(
    title: Option<TitleDiv>,
    firstMoney: Option<string>,
    stars: Option<string>,
    reviewCount: Option<string>,
    struck: Option<Struck>)

  /** `div.pagination`, with the `a.next` link inside it (if any). */
  datatype PaginationDiv = PaginationDiv(next: Option<Anchor>)

  /** `div#description` or `div#description-1`: the texts of the `li` items of its
      first `ul`, or `None` when it holds no `ul`. */
  datatype ListDiv = ListDiv(items: Option<seq<string>>)

  /** A page as the scraper sees it. `reviews` holds the texts of the `div.content-review`
      elements of `div.yotpo-reviews.yotpo-active`, or `None` when that container is missing. */
  datatype Doc = Doc(
    pagination: Option<PaginationDiv>,
    products: seq<Block>,
    description: Option<ListDiv>,
    specification: Option<ListDiv>,
    reviews: Option<seq<string>>)

  /** One write of fetched content to a file. */
  datatype SavedFile = SavedFile(path: string, content: Doc)

  /** The output directory: file path to the page saved there. */
  type Store = map<string, Doc>

  /** The store after performing `writes` in order; a later write to a path replaces an earlier one. */
  function SaveAll(store: Store, writes: seq<SavedFile>): (r: Store)
    ensures r.Keys == store.Keys + set w | w in writes :: w.path
    decreases |writes|
  {
    if |writes| == 0 then store
    else SaveAll(store[writes[0].path := writes[0].content], writes[1..])
  }

  /** Paths written pairwise distinct: no write overwrites another. */
  predicate DistinctPaths(writes: seq<SavedFile>)
  {
    forall i, j :: 0 <= i < j < |writes| ==> writes[i].path != writes[j].path
  }

  /** When no two writes share a path, every written file holds exactly what was written to it. */
  lemma {:induction false} SaveAllReadsBack(store: Store, writes: seq<SavedFile>, k: nat)
    requires DistinctPaths(writes)
    requires k < |writes|
    ensures writes[k].path in SaveAll(store, writes)
    ensures SaveAll(store, writes)[writes[k].path] == writes[k].content
    decreases |writes|
  {
    var next := store[writes[0].path := writes[0].content];
    if k == 0 {
      SaveAllKeeps(next, writes[1..], writes[0].path);
    } else {
      SaveAllReadsBack(next, writes[1..], k - 1);
    }
  }

  /** Writes to other paths leave a file untouched. */
  lemma {:induction false} SaveAllKeeps(store: Store, writes: seq<SavedFile>, path: string)
    requires path in store
    requires forall i :: 0 <= i < |writes| ==> writes[i].path != path
    ensures path in SaveAll(store, writes)
    ensures SaveAll(store, writes)[path] == store[path]
    decreases |writes|
  {
    if |writes| > 0 {
      SaveAllKeeps(store[writes[0].path := writes[0].content], writes[1..], path);
    }
  }
}

=== FILE: export.dfy ===
/** `generateProductDetails`, without the CSV write: the record set becomes a table whose
    price, rating and review columns are cleaned with `str.replace('[^.0-9_]', '')` and
    `str.strip()`, and whose columns carry their display names. */
module Export {
  import opened Wrappers
  import opened Records
  import opened Listing

  /** The characters the regular expression `[^.0-9_]` does not match. */
  predicate Kept(c: char)
  {
    c == '.' || ('0' <= c <= '9') || c == '_'
  }

  /** Deletes every character the regular expression `[^.0-9_]` matches. */
  function KeepNumeric(s: string): (r: string)
    ensures |r| <= |s|
    ensures forall i :: 0 <= i < |r| ==> Kept(r[i])
  {
    if |s| == 0 then ""
    else
      var init := KeepNumeric(s[..|s| - 1]);
      var c := s[|s| - 1];
      if Kept(c) then init + [c] else init
  }

  /** Characters `str.strip()` removes: those for which Python's `str.isspace()` holds. */
  predicate IsSpace(c: char)
  {
    var n := c as int;
    || (9 <= n <= 13) || (28 <= n <= 32) || n == 0x85 || n == 0xA0 || n == 0x1680
    || (0x2000 <= n <= 0x200A) || n == 0x2028 || n == 0x2029 || n == 0x202F
    || n == 0x205F || n == 0x3000
  }

  /** Drops the leading whitespace: the result is a suffix of `s`, everything dropped is
      whitespace and the result does not start with whitespace. */
  function StripLeft(s: string): (r: string)
    ensures |r| <= |s| && r == s[|s| - |r|..]
    ensures forall i :: 0 <= i < |s| - |r| ==> IsSpace(s[i])
    ensures |r| > 0 ==> !IsSpace(r[0])
  {
    if |s| > 0 && IsSpace(s[0]) then StripLeft(s[1..]) else s
  }

  /** Drops the trailing whitespace: the result is a prefix of `s`, everything dropped is
      whitespace and the result does not end with whitespace. */
  function StripRight(s: string): (r: string)
    ensures |r| <= |s| && r == s[..|r|]
    ensures forall i :: |r| <= i < |s| ==> IsSpace(s[i])
    ensures |r| > 0 ==> !IsSpace(r[|r| - 1])
  {
    if |s| > 0 && IsSpace(s[|s| - 1]) then StripRight(s[..|s| - 1]) else s
  }

  /** `str.strip()` with no argument: the result neither starts nor ends with whitespace, and
      text that neither starts nor ends with whitespace is left as it is. */
  function Strip(s: string): (r: string)
    ensures |r| <= |s|
    ensures |r| > 0 ==> !IsSpace(r[0]) && !IsSpace(r[|r| - 1])
    ensures (|s| == 0 || (!IsSpace(s[0]) && !IsSpace(s[|s| - 1]))) ==> r == s
  {
    StripRight(StripLeft(s))
  }

  /** One cell of a cleaned column: the `strip()` after the deletion never changes anything,
      because kept characters are never whitespace. */
  function CleanNumeric(s: string): (r: string)
    ensures r == KeepNumeric(s)
    ensures forall i :: 0 <= i < |r| ==> Kept(r[i])
  {
    var k := KeepNumeric(s);
    assert |k| > 0 ==> Kept(k[0]) && Kept(k[|k| - 1]);
    Strip(k)
  }

  /** The deletion works character by character: on a concatenation it is the concatenation
      of the results, so the kept characters keep their order. */
  lemma {:induction false} KeepNumericAppend(s: string, t: string)
    ensures KeepNumeric(s + t) == KeepNumeric(s) + KeepNumeric(t)
    decreases |t|
  {
    if |t| == 0 {
      assert s + t == s;
    } else {
      var t' := t[..|t| - 1];
      assert (s + t)[..|s + t| - 1] == s + t';
      KeepNumericAppend(s, t');
    }
  }

  /** A single character survives exactly when it is `.`, a digit or `_`. */
  lemma KeepNumericChar(c: char)
    ensures KeepNumeric([c]) == (if Kept(c) then [c] else [])
  {
    assert [c][..0] == [];
  }

  /** A string made only of kept characters comes through unchanged. */
  lemma {:induction false} KeepNumericFixes(s: string)
    requires forall i :: 0 <= i < |s| ==> Kept(s[i])
    ensures KeepNumeric(s) == s
  {
    if |s| > 0 {
      var init := s[..|s| - 1];
      KeepNumericFixes(init);
      assert s == init + [s[|s| - 1]];
    }
  }

  /** A string with no kept character disappears entirely. */
  lemma {:induction false} KeepNumericDrops(s: string)
    requires forall i :: 0 <= i < |s| ==> !Kept(s[i])
    ensures KeepNumeric(s) == ""
  {
    if |s| > 0 {
      KeepNumericDrops(s[..|s| - 1]);
    }
  }

  /** Cleaning twice is cleaning once. */
  lemma CleanIdempotent(s: string)
    ensures CleanNumeric(CleanNumeric(s)) == CleanNumeric(s)
  {
    KeepNumericFixes(KeepNumeric(s));
  }

  /** A listed price loses its currency sign and code (the cleaning of a cell is this
      deletion, by the contract of `CleanNumeric`). */
  lemma CleanPriceExample()
    ensures KeepNumeric("$45.00 USD") == "45.00"
  {
    var sign, amount, code := "$", "45.00", " USD";
    assert KeepNumeric(sign) == "" by { KeepNumericDrops(sign); }
    assert KeepNumeric(amount) == amount by { KeepNumericFixes(amount); }
    assert KeepNumeric(code) == "" by { KeepNumericDrops(code); }
    KeepNumericAppend(sign, amount);
    KeepNumericAppend(sign + amount, code);
    assert "$45.00 USD" == sign + amount + code;
  }

  /** The thousands separator goes too. */
  lemma CleanThousandsExample()
    ensures KeepNumeric("$1,234.56 USD") == "1234.56"
  {
    var head, amount, code := "$1,", "234.56", " USD";
    assert KeepNumeric(head) == "1";
    KeepAmountDropCode(amount, code);
    KeepNumericAppend(head, amount + code);
    assert "$1,234.56 USD" == head + (amount + code);
  }

  /** An amount followed by a currency code keeps just the amount. */
  lemma KeepAmountDropCode(amount: string, code: string)
    requires forall i :: 0 <= i < |amount| ==> Kept(amount[i])
    requires forall i :: 0 <= i < |code| ==> !Kept(code[i])
    ensures KeepNumeric(amount + code) == amount
  {
    KeepNumericDrops(code);
    KeepNumericFixes(amount);
    KeepNumericAppend(amount, code);
  }

  /** The default price cleans to zero. */
  lemma CleanDefaultPrice()
    ensures KeepNumeric(NoPrice) == "0.00"
  {
    var sign, amount, code := "$", "0.00", " USD";
    KeepNumericDrops(sign);
    KeepAmountDropCode(amount, code);
    KeepNumericAppend(sign, amount + code);
    assert NoPrice == sign + (amount + code);
  }

  /** The default rating cleans to zero. */
  lemma CleanDefaultRating()
    ensures KeepNumeric(NoRating) == "0.0"
  {
    KeepNumericDrops(" star rating");
    KeepNumericFixes("0.0");
    KeepNumericAppend("0.0", " star rating");
    assert NoRating == "0.0" + " star rating";
  }

  /** The default review count cleans to zero. */
  lemma CleanDefaultReviews()
    ensures KeepNumeric(NoReviews) == "0"
  {
    KeepNumericDrops(" Reviews");
    KeepNumericAppend("0", " Reviews");
    assert NoReviews == "0" + " Reviews";
  }

  /** Column names after the rename, in the order the records' keys give them. */
  const ProductColumns := ["URL", "Name", "Disc-Price", "Original-Price", "Star", "Total-Review"]

  /** One row of `ProductDetails.csv`. */
  datatype ProductRow = ProductRow(
    url: Option<string>,
    name: string,
    discPrice: string,
    originalPrice: string,
    star: string,
    totalReview: string)

  datatype ProductTable = ProductTable(columns: seq<string>, rows: seq<ProductRow>)

  /** One record as a row: `href` and `name` unchanged, the other four columns cleaned. */
  function ToRow(l: Listing): (r: ProductRow)
    ensures r.url == l.href && r.name == l.name
    ensures r.discPrice == KeepNumeric(l.dPrice) && r.originalPrice == KeepNumeric(l.oPrice)
    ensures r.star == KeepNumeric(l.rating) && r.totalReview == KeepNumeric(l.review)
  {
    ProductRow(l.href, l.name, CleanNumeric(l.dPrice), CleanNumeric(l.oPrice),
               CleanNumeric(l.rating), CleanNumeric(l.review))
  }

  /** The row cells of the cleaned columns. */
  function NumericCells(row: ProductRow): seq<string>
  {
    [row.discPrice, row.originalPrice, row.star, row.totalReview]
  }

  /** `generateProductDetails(details, outputDir)` up to the write. `None` stands for the
      exception `generateProductDetails` lets escape: `details` itself is `None`, or it is empty and the
      frame has no `dPrice` column to clean. Rows follow the records' insertion order;
      `href` and `name` pass through and the four numeric columns keep exactly their
      `.`, digit and `_` characters, in order. */
  function GenerateProductDetails(details: Option<RecordSet<Listing>>): (t: Option<ProductTable>)
    ensures t.Some? <==> details.Some? && |details.value| > 0
    ensures t.Some? ==> t.value.columns == ProductColumns && |t.value.rows| == |details.value|
    ensures t.Some? ==> forall k :: 0 <= k < |t.value.rows| ==>
              var l := details.value[k].value;
              t.value.rows[k] == ProductRow(l.href, l.name, KeepNumeric(l.dPrice), KeepNumeric(l.oPrice),
                                            KeepNumeric(l.rating), KeepNumeric(l.review))
  {
    if details.None? || |details.value| == 0 then None
    else
      var rows := seq(|details.value|, k requires 0 <= k < |details.value| => ToRow(details.value[k].value));
      Some(ProductTable(ProductColumns, rows))
  }

  /** Text made only of kept characters is left as it is by the cleaning. */
  lemma CleanFixesKept(s: string)
    requires forall i :: 0 <= i < |s| ==> Kept(s[i])
    ensures CleanNumeric(s) == s
  {
    KeepNumericFixes(s);
  }

  /** A row whose numeric cells are the deletion's results has only clean numeric cells. */
  lemma CleanedRowIsClean(row: ProductRow, l: Listing, i: nat)
    requires row.discPrice == KeepNumeric(l.dPrice) && row.originalPrice == KeepNumeric(l.oPrice)
    requires row.star == KeepNumeric(l.rating) && row.totalReview == KeepNumeric(l.review)
    requires i < 4
    ensures CleanNumeric(NumericCells(row)[i]) == NumericCells(row)[i]
  {
    CleanFixesKept(NumericCells(row)[i]);
  }

  /** Re-cleaning the exported numeric cells changes nothing. */
  lemma ExportedCellsAreClean(details: RecordSet<Listing>, t: ProductTable, k: nat, i: nat)
    requires GenerateProductDetails(Some(details)) == Some(t)
    requires k < |details| && i < 4
    ensures CleanNumeric(NumericCells(t.rows[k])[i]) == NumericCells(t.rows[k])[i]
  {
    CleanedRowIsClean(t.rows[k], details[k].value, i);
  }

  /** The price swap seen in the export: a product without a struck-through price always
      shows a discounted price of `0.00`. */
  lemma UnstruckExportsZeroDiscount(l: Listing)
    requires l.dPrice == NoPrice
    ensures ToRow(l).discPrice == "0.00"
  {
    CleanDefaultPrice();
  }
}

=== FILE: fetcher.dfy ===
/** `fetchHTMLContent`: up to three browser attempts per URL, returning the content of
    the first attempt that loads the requested URL. The browser session, the 20-second
    page-load wait and the clock are not modelled; each attempt is reduced to its outcome. */
module Fetcher {
  import opened Wrappers
  import opened Dom

  const MaxAttempts: nat := 3
  /** Seconds slept after an attempt that raised. */
  const RetryDelay: nat := 5

  /** What one attempt of the browser did. */
  datatype Attempt =
      /** Launch, navigation or the wait for the URL raised: warn, sleep, try again. */
    | Raised
      /** The wait succeeded but the URL read right after navigation differed from the
          requested one: no content, no sleep, try again. */
    | UrlChanged
      /** The URL matched: the page source is the result. */
    | Loaded(content: Doc)

  /** The outcome of each numbered attempt (0, 1, 2) for one URL. */
  type Browser = nat -> Attempt

  /** The result of one `fetchHTMLContent` call: content or `None`, how many attempts
      were started and how many retry delays were slept. */
  datatype FetchRun = FetchRun(content: Option<Doc>, attempts: nat, sleeps: nat)

  /** Number of attempts among the first `n` that raised. */
  function RaisedCount(browser: Browser, n: nat): nat
  {
    if n == 0 then 0 else RaisedCount(browser, n - 1) + (if browser(n - 1).Raised? then 1 else 0)
  }

  /** Some attempt among the first `n` loads the page. */
  predicate LoadsWithin(browser: Browser, n: nat)
  {
    exists k :: 0 <= k < n && browser(k).Loaded?
  }

  /** The attempts from number `k` on. */
  function AttemptsFrom(browser: Browser, k: nat): (run: FetchRun)
    requires k <= MaxAttempts
    ensures k <= run.attempts <= MaxAttempts
    ensures forall j :: k <= j < run.attempts - 1 ==> !browser(j).Loaded?
    ensures run.content.Some? ==> k < run.attempts && browser(run.attempts - 1) == Loaded(run.content.value)
    ensures run.content.None? ==> run.attempts == MaxAttempts && forall j :: k <= j < MaxAttempts ==> !browser(j).Loaded?
    ensures run.sleeps + RaisedCount(browser, k) == RaisedCount(browser, run.attempts)
    decreases MaxAttempts - k
  {
    if k == MaxAttempts then FetchRun(None, k, 0)
    else match browser(k)
      case Loaded(c) => FetchRun(Some(c), k + 1, 0)
      case Raised =>
        var rest := AttemptsFrom(browser, k + 1);
        rest.(sleeps := rest.sleeps + 1)
      case UrlChanged => AttemptsFrom(browser, k + 1)
  }

  /** `fetchHTMLContent(url)` for a URL whose attempts behave as `browser` says. */
  function FetchHTMLContent(browser: Browser): (run: FetchRun)
    ensures 1 <= run.attempts <= MaxAttempts
    ensures run.content.Some? <==> LoadsWithin(browser, MaxAttempts)
    ensures run.content.Some? ==> browser(run.attempts - 1) == Loaded(run.content.value)
    ensures forall j :: 0 <= j < run.attempts - 1 ==> !browser(j).Loaded?
    ensures run.content.None? ==> run.attempts == MaxAttempts
    ensures run.sleeps == RaisedCount(browser, run.attempts)
  {
    AttemptsFrom(browser, 0)
  }

  /** `fetchHTMLContent` as a function of the full URL, built from per-URL browser behaviour:
      a URL yields a page exactly when one of its three attempts loads. */
  function Fetch(browser: string -> Browser): (f: string -> Option<Doc>)
    ensures forall url :: f(url).Some? <==> LoadsWithin(browser(url), MaxAttempts)
  {
    url => FetchHTMLContent(browser(url)).content
  }

  /** The capability the crawl passes are given: for a relative URL `rel`, the page
      `fetchHTMLContent(f'{absoluteUrl}{rel}')` returns, so `rel` yields a page exactly when
      one of the three attempts on the joined URL loads. */
  function Site(browser: string -> Browser, absUrl: string): (f: string -> Option<Doc>)
    ensures forall rel :: f(rel).Some? <==> LoadsWithin(browser(absUrl + rel), MaxAttempts)
  {
    rel => FetchHTMLContent(browser(absUrl + rel)).content
  }

  /** Success on the first attempt costs one attempt and no delay. */
  lemma FirstAttemptLoads(browser: Browser, c: Doc)
    requires browser(0) == Loaded(c)
    ensures FetchHTMLContent(browser) == FetchRun(Some(c), 1, 0)
  {
  }

  /** Two raised attempts then a load: the third attempt's content, after two delays. */
  lemma TwoFailuresThenLoad(browser: Browser, c: Doc)
    requires browser(0) == Raised && browser(1) == Raised && browser(2) == Loaded(c)
    ensures FetchHTMLContent(browser) == FetchRun(Some(c), 3, 2)
  {
  }

  /** Attempts whose URL check failed without raising are retried without any delay. */
  lemma UrlChangesCostNoDelay(browser: Browser, c: Doc)
    requires browser(0) == UrlChanged && browser(1) == UrlChanged && browser(2) == Loaded(c)
    ensures FetchHTMLContent(browser) == FetchRun(Some(c), 3, 0)
  {
  }

  /** Three raised attempts: `None`, and the delay is slept after the last one too. */
  lemma AllRaise(browser: Browser)
    requires forall k :: browser(k) == Raised
    ensures FetchHTMLContent(browser) == FetchRun(None, 3, 3)
  {
  }

  /** Only the first three attempts matter: a load on a fourth is never reached. */
  lemma LaterLoadsIgnored(browser: Browser, c: Doc)
    requires forall k :: 0 <= k < MaxAttempts ==> !browser(k).Loaded?
    requires browser(3) == Loaded(c)
    ensures FetchHTMLContent(browser).content == None
  {
  }
}

=== FILE: listing.dfy ===
/** `extractContentFromPages`: six fields per `div.product-details` block, with the
    scraper's defaults, its price swap, dense 1-based numbering across all pages, and an
    all-or-nothing failure policy for the whole pass. */
module Listing {
  import opened Wrappers
  import opened Dom
  import opened Records

  const NoPrice := "$0.00 USD"
  const NoName := "No Name"
  const NoRating := "0.0 star rating"
  const NoReviews := "0 Reviews"

  /** One listing record: the scraper's dict with keys `href`, `name`, `dPrice`, `oPrice`,
      `rating`, `review`. */
  datatype Listing = Listing(
    href: Option<string>,
    name: string,
    dPrice: string,
    oPrice: string,
    rating: string,
    review: string)

  /** The title chain `div.product-title` -> `h4` breaks: a lookup inside `None` raises. */
  predicate TitleBroken(b: Block)
  {
    b.title.None? || b.title.value.h4.None?
  }

  /** The title anchor, once the title chain is intact. */
  function TitleAnchor(b: Block): Option<Anchor>
    requires !TitleBroken(b)
  {
    b.title.value.h4.value.anchor
  }

  /** The text of the struck-through price, `del span.money`, if both exist. */
  function StruckPrice(b: Block): Option<string>
  {
    if b.struck.Some? then b.struck.value.money else None
  }

  /** Extraction of one block raises: broken title chain, or an anchor without `href`. */
  predicate BlockRaises(b: Block)
  {
    TitleBroken(b) || (TitleAnchor(b).Some? && TitleAnchor(b).value.href.None?)
  }

  /** The record for one block, or `None` where the scraper raises. */
  function ExtractProduct(b: Block): (r: Option<Listing>)
    ensures r.None? <==> BlockRaises(b)
    ensures r.Some? && TitleAnchor(b).None? ==> r.value.href == None && r.value.name == NoName
    ensures r.Some? && TitleAnchor(b).Some? ==>
              r.value.href == TitleAnchor(b).value.href && r.value.name == TitleAnchor(b).value.text
    ensures r.Some? && StruckPrice(b).Some? ==>
              r.value.oPrice == StruckPrice(b).value && r.value.dPrice == b.firstMoney.GetOr(NoPrice)
    ensures r.Some? && StruckPrice(b).None? ==>
              r.value.oPrice == b.firstMoney.GetOr(NoPrice) && r.value.dPrice == NoPrice
    ensures r.Some? ==> r.value.rating == b.stars.GetOr(NoRating) && r.value.review == b.reviewCount.GetOr(NoReviews)
  {
    if TitleBroken(b) then None
    else
      var anchor := TitleAnchor(b);
      if anchor.Some? && anchor.value.href.None? then None
      else
        var href := if anchor.Some? then anchor.value.href else None;
        var name := if anchor.Some? then anchor.value.text else NoName;
        var dPrice := b.firstMoney.GetOr(NoPrice);
        var original := StruckPrice(b);
        var oPrice := if original.Some? then original.value else dPrice;
        var dPrice' := if original.None? then NoPrice else dPrice;
        Some(Listing(href, name, dPrice', oPrice, b.stars.GetOr(NoRating), b.reviewCount.GetOr(NoReviews)))
  }

  /** Every path names a saved page. */
  predicate AllSaved(store: Store, paths: seq<string>)
  {
    forall k :: 0 <= k < |paths| ==> paths[k] in store
  }

  /** The product blocks of the pages, page by page and in document order within a page. */
  function AllBlocks(store: Store, paths: seq<string>): seq<Block>
    requires AllSaved(store, paths)
  {
    if |paths| == 0 then []
    else AllBlocks(store, paths[..|paths| - 1]) + store[paths[|paths| - 1]].products
  }

  /** The records of the blocks, all or nothing. */
  function ExtractAll(blocks: seq<Block>): (r: Option<seq<Listing>>)
    ensures r.Some? <==> forall k :: 0 <= k < |blocks| ==> !BlockRaises(blocks[k])
    ensures r.Some? ==> |r.value| == |blocks|
    ensures r.Some? ==> forall k :: 0 <= k < |blocks| ==> Some(r.value[k]) == ExtractProduct(blocks[k])
  {
    if |blocks| == 0 then Some([])
    else
      var init, last := blocks[..|blocks| - 1], blocks[|blocks| - 1];
      assert forall k :: 0 <= k < |init| ==> init[k] == blocks[k];
      match ExtractAll(init)
      case None => None
      case Some(records) =>
        match ExtractProduct(last)
        case None => None
        case Some(record) => Some(records + [record])
  }

  /** The pass succeeds: a list was given, every page can be opened and no block raises. */
  predicate PassSucceeds(store: Store, pages: Option<seq<string>>)
  {
    && pages.Some?
    && AllSaved(store, pages.value)
    && forall k :: 0 <= k < |AllBlocks(store, pages.value)| ==> !BlockRaises(AllBlocks(store, pages.value)[k])
  }

  /** `extractContentFromPages(pages)` over the saved pages in `store`. `pages` is `None` when
      the caller passes on a failed crawl; iterating it raises. */
  function ExtractContentFromPages(store: Store, pages: Option<seq<string>>): (r: Option<RecordSet<Listing>>)
    ensures r.Some? <==> PassSucceeds(store, pages)
    ensures r.Some? ==> Dense(r.value)
    ensures r.Some? ==> |r.value| == |AllBlocks(store, pages.value)|
    ensures r.Some? ==> forall k :: 0 <= k < |r.value| ==>
              Some(r.value[k].value) == ExtractProduct(AllBlocks(store, pages.value)[k])
  {
    if pages.None? || !AllSaved(store, pages.value) then None
    else
      match ExtractAll(AllBlocks(store, pages.value))
      case None => None
      case Some(records) => Some(Number(records, 1))
  }

  /** The all-or-nothing extraction of two runs of blocks is the extraction of each, joined. */
  lemma {:induction false} ExtractAllAppend(xs: seq<Block>, ys: seq<Block>)
    requires ExtractAll(xs + ys).Some?
    ensures ExtractAll(xs).Some? && ExtractAll(ys).Some?
    ensures ExtractAll(xs + ys).value == ExtractAll(xs).value + ExtractAll(ys).value
  {
    var all := xs + ys;
    assert forall k :: 0 <= k < |xs| ==> all[k] == xs[k];
    assert forall k :: 0 <= k < |ys| ==> all[|xs| + k] == ys[k];
    var a, b, c := ExtractAll(xs).value, ExtractAll(ys).value, ExtractAll(all).value;
    forall k | 0 <= k < |c|
      ensures c[k] == (a + b)[k]
    {
      if k < |xs| {
        assert Some(c[k]) == ExtractProduct(xs[k]) == Some(a[k]);
      } else {
        assert all[|xs| + (k - |xs|)] == ys[k - |xs|];
        assert Some(c[k]) == ExtractProduct(ys[k - |xs|]) == Some(b[k - |xs|]);
      }
    }
  }

  /** Page order, then block order: one more page appends its blocks' records, keyed on from
      where the earlier pages stopped. */
  lemma ExtractNextPage(store: Store, pages: seq<string>, page: string)
    requires PassSucceeds(store, Some(pages + [page]))
    ensures PassSucceeds(store, Some(pages))
    ensures page in store
    ensures var before := ExtractContentFromPages(store, Some(pages)).value;
            var blocks := store[page].products;
            && ExtractAll(blocks).Some?
            && ExtractContentFromPages(store, Some(pages + [page])).value
                 == before + Number(ExtractAll(blocks).value, |before| + 1)
  {
    var all := pages + [page];
    assert all[..|all| - 1] == pages;
    assert all[|all| - 1] == page;
    assert AllSaved(store, pages) by {
      forall k | 0 <= k < |pages|
        ensures pages[k] in store
      {
        assert all[k] == pages[k];
      }
    }
    var prefix, blocks := AllBlocks(store, pages), store[page].products;
    assert AllBlocks(store, all) == prefix + blocks;
    ExtractAllAppend(prefix, blocks);
    var xs, ys := ExtractAll(prefix).value, ExtractAll(blocks).value;
    assert ExtractContentFromPages(store, Some(pages)) == Some(Number(xs, 1));
    assert ExtractContentFromPages(store, Some(all)) == Some(Number(xs + ys, 1));
    NumberAppend(xs, ys, 1);
  }

  /** A block with an intact title chain but every optional element missing gives the full
      default record. */
  lemma DefaultRecord(b: Block)
    requires b.title == Some(TitleDiv(Some(Heading(None))))
    requires b.firstMoney.None? && b.stars.None? && b.reviewCount.None? && b.struck.None?
    ensures ExtractProduct(b) == Some(Listing(None, NoName, NoPrice, NoPrice, NoRating, NoReviews))
  {
  }

  /** The price swap as written: without a struck-through price, the shown price lands in
      `oPrice` and `dPrice` becomes the zero sentinel, whatever the shown price is. */
  lemma PriceSwap(b: Block, shown: string)
    requires !BlockRaises(b)
    requires b.firstMoney == Some(shown) && StruckPrice(b).None?
    ensures ExtractProduct(b).value.oPrice == shown
    ensures ExtractProduct(b).value.dPrice == NoPrice
  {
  }

  /** With a struck-through price the fields are the natural ones: struck price as `oPrice`,
      first shown price as `dPrice`. */
  lemma StruckPriceIsOriginal(b: Block)
    requires !BlockRaises(b)
    requires b.firstMoney == Some("$30.00 USD") && b.struck == Some(Struck(Some("$45.00 USD")))
    ensures ExtractProduct(b).value.oPrice == "$45.00 USD"
    ensures ExtractProduct(b).value.dPrice == "$30.00 USD"
  {
  }

  /** A `del` without a `span.money` in it counts as no struck-through price. */
  lemma EmptyStruckIsNoStruck(b: Block)
    requires b.struck == Some(Struck(None))
    ensures ExtractProduct(b) == ExtractProduct(b.(struck := None))
  {
  }
}

=== FILE: pagination.dfy ===
/** `fetchNextPageDetails` and `fetchAllPages`: the walk over the catalogue's listing
    pages, fetching each page, saving it as `{outputDir}{i}.html` and following the
    `a.next` link of its `div.pagination` until there is none. Here `fetch` maps a relative
    URL to the page fetched from `absoluteUrl` joined with it (`Fetcher.Site`); `absUrl`
    itself only appears in the abandon that names the full URL. */
module Pagination {
  import opened Wrappers
  import opened Text
  import opened Dom

  /** What `fetchNextPageDetails` does with a page. */
  datatype NextPage =
      /** The `href` of `a.next`: the relative URL of the next page. */
    | NextAt(href: string)
      /** No `a.next` link: the function returns `None` and the walk ends. */
    | LastPage
      /** No `div.pagination`: looking inside `None` raises. */
    | NoPaginationDiv
      /** `a.next` without an `href` attribute: `a['href']` raises. */
    | NextLacksHref

  function NextPageDetails(doc: Doc): (r: NextPage)
    ensures r.NoPaginationDiv? <==> doc.pagination.None?
    ensures r.LastPage? <==> doc.pagination.Some? && doc.pagination.value.next.None?
    ensures r.NextAt? <==> doc.pagination.Some? && doc.pagination.value.next.Some?
                            && doc.pagination.value.next.value.href.Some?
    ensures r.NextAt? ==> r.href == doc.pagination.value.next.value.href.value
  {
    match doc.pagination
    case None => NoPaginationDiv
    case Some(p) =>
      match p.next
      case None => LastPage
      case Some(a) => if a.href.Some? then NextAt(a.href.value) else NextLacksHref
  }

  /** `f'{outputDir}{pageIndex}.html'` */
  function ListingPath(outDir: string, index: nat): (p: string)
    ensures |outDir| + 5 < |p|
    ensures p[..|outDir|] == outDir && p[|p| - 5..] == ".html"
  {
    outDir + NatToString(index) + ".html"
  }

  /** Between the directory and `.html`, a listing file name holds the page number in decimal. */
  lemma ListingPathDecodes(outDir: string, index: nat)
    ensures var p := ListingPath(outDir, index);
            var digits := p[|outDir|..|p| - 5];
            AllDigits(digits) && DecimalValue(digits) == index
  {
    var p := ListingPath(outDir, index);
    DecimalRoundTrip(index);
    assert p[|outDir|..|p| - 5] == NatToString(index);
  }

  /** Different page numbers give different listing file names. */
  lemma ListingPathInjective(outDir: string, a: nat, b: nat)
    requires a != b
    ensures ListingPath(outDir, a) != ListingPath(outDir, b)
  {
    ListingPathDecodes(outDir, a);
    ListingPathDecodes(outDir, b);
  }

  /** Why a walk was abandoned. */
  datatype WalkError =
    | FetchFailed(url: string)
    | NoPagination(file: string)
    | NextWithoutHref(file: string)

  datatype Status =
    | Finished
    | Aborted(error: WalkError)
      /** The page chain was longer than the fuel bound; the scraper would keep walking. */
    | OutOfFuel

  /** A walk: how it ended, the relative URLs fetched in order and the files saved in order. */
  datatype Walk = Walk(status: Status, visited: seq<string>, saved: seq<SavedFile>)

  /** The page at relative URL `from` is fetched and its next link is `to`. */
  predicate Links(fetch: string -> Option<Doc>, from: string, to: string)
  {
    && fetch(from).Some?
    && NextPageDetails(fetch(from).value) == NextAt(to)
  }

  /** The walk from relative URL `rel` for at most `fuel` pages, saving page `index + k` under
      `name(index + k)`; `FetchAllPages` fixes `name` to the scraper's file names. */
  function WalkFrom(fetch: string -> Option<Doc>, absUrl: string, rel: string, name: nat -> string,
                    index: nat, fuel: nat): (w: Walk)
    ensures fuel == 0 ==> w == Walk(OutOfFuel, [], [])
    ensures fuel > 0 ==> 0 < |w.visited| <= fuel && w.visited[0] == rel
    ensures |w.visited| - 1 <= |w.saved| <= |w.visited|
    ensures w.status.Finished? ==> |w.saved| == |w.visited|
    decreases fuel
  {
    if fuel == 0 then Walk(OutOfFuel, [], [])
    else
      var url := absUrl + rel;
      match fetch(rel)
      case None => Walk(Aborted(FetchFailed(url)), [rel], [])
      case Some(doc) =>
        var file := SavedFile(name(index), doc);
        match NextPageDetails(doc)
        case NoPaginationDiv => Walk(Aborted(NoPagination(file.path)), [rel], [file])
        case NextLacksHref => Walk(Aborted(NextWithoutHref(file.path)), [rel], [file])
        case LastPage => Walk(Finished, [rel], [file])
        case NextAt(next) =>
          var rest := WalkFrom(fetch, absUrl, next, name, index + 1, fuel - 1);
          Walk(rest.status, [rel] + rest.visited, [file] + rest.saved)
  }

  /** One step of the walk over a page whose next link is `next`: save it, then walk on from `next`. */
  lemma WalkStep(fetch: string -> Option<Doc>, absUrl: string, rel: string, next: string,
                 name: nat -> string, index: nat, fuel: nat, w: Walk, rest: Walk)
    requires fuel > 0
    requires Links(fetch, rel, next)
    requires w == WalkFrom(fetch, absUrl, rel, name, index, fuel)
    requires rest == WalkFrom(fetch, absUrl, next, name, index + 1, fuel - 1)
    ensures w.status == rest.status
    ensures w.visited == [rel] + rest.visited
    ensures w.saved == [SavedFile(name(index), fetch(rel).value)] + rest.saved
  {
  }

  /** Each visited page was fetched and links to the next page visited. */
  predicate FollowsLinks(fetch: string -> Option<Doc>, w: Walk)
  {
    forall k :: 0 <= k < |w.visited| - 1 ==> Links(fetch, w.visited[k], w.visited[k + 1])
  }

  /** The k-th saved file is named for page `index + k`. */
  predicate NumberedFrom(name: nat -> string, index: nat, w: Walk)
  {
    forall k :: 0 <= k < |w.saved| ==> w.saved[k].path == name(index + k)
  }

  /** The k-th saved file holds the page fetched for the k-th visited relative URL. */
  predicate SavesFetched(fetch: string -> Option<Doc>, w: Walk)
  {
    && |w.saved| <= |w.visited|
    && forall k :: 0 <= k < |w.saved| ==> fetch(w.visited[k]) == Some(w.saved[k].content)
  }

  /** The walk ends as its last page dictates: finished on a page without `a.next`, abandoned
      on a failed fetch naming its full URL, and out of fuel only after `fuel` pages, the last
      of which still had a next link to follow. */
  predicate EndsAsLastPageSays(fetch: string -> Option<Doc>, absUrl: string, fuel: nat, w: Walk)
  {
    var last := |w.visited| - 1;
    && (w.status.Finished? ==>
          && last >= 0
          && fetch(w.visited[last]).Some?
          && NextPageDetails(fetch(w.visited[last]).value) == LastPage)
    && (w.status.Aborted? && w.status.error.FetchFailed? ==>
          && last >= 0
          && |w.saved| == last
          && w.status.error.url == absUrl + w.visited[last]
          && fetch(w.visited[last]) == None)
    && (w.status.OutOfFuel? ==>
          && |w.saved| == |w.visited| == fuel
          && (fuel > 0 ==>
                && fetch(w.visited[last]).Some?
                && NextPageDetails(fetch(w.visited[last]).value).NextAt?))
  }

  /** A page without `div.pagination`, or whose `a.next` has no `href`, ends the walk in an
      abandon that names the file the page was saved to; that page is the last one visited. */
  predicate BreakNamesFile(fetch: string -> Option<Doc>, name: nat -> string, index: nat, w: Walk)
  {
    var last := |w.visited| - 1;
    w.status.Aborted? && !w.status.error.FetchFailed? ==>
      && last >= 0
      && |w.saved| == |w.visited|
      && w.status.error.file == name(index + last)
      && fetch(w.visited[last]).Some?
      && NextPageDetails(fetch(w.visited[last]).value)
           == (if w.status.error.NoPagination? then NoPaginationDiv else NextLacksHref)
  }

  /** The walk does not go on from its first page unless that page was fetched and has a next link. */
  predicate GoesOn(fetch: string -> Option<Doc>, rel: string, fuel: nat)
  {
    fuel > 0 && fetch(rel).Some? && NextPageDetails(fetch(rel).value).NextAt?
  }

  lemma {:induction false} WalkLinks(fetch: string -> Option<Doc>, absUrl: string, rel: string,
                                     name: nat -> string, index: nat, fuel: nat, w: Walk)
    requires w == WalkFrom(fetch, absUrl, rel, name, index, fuel)
    ensures FollowsLinks(fetch, w)
    decreases fuel
  {
    if GoesOn(fetch, rel, fuel) {
      var next := NextPageDetails(fetch(rel).value).href;
      var rest := WalkFrom(fetch, absUrl, next, name, index + 1, fuel - 1);
      WalkLinks(fetch, absUrl, next, name, index + 1, fuel - 1, rest);
      WalkStep(fetch, absUrl, rel, next, name, index, fuel, w, rest);
      forall k | 0 <= k < |w.visited| - 1
        ensures Links(fetch, w.visited[k], w.visited[k + 1])
      {
        assert w.visited[k + 1] == rest.visited[k];
        if k > 0 {
          assert w.visited[k] == rest.visited[k - 1];
        }
      }
    }
  }

  /** The first saved file of a walk is page `index`, holding the page fetched for `rel`. */
  lemma WalkSavesFirst(fetch: string -> Option<Doc>, absUrl: string, rel: string,
                       name: nat -> string, index: nat, fuel: nat, w: Walk)
    requires w == WalkFrom(fetch, absUrl, rel, name, index, fuel)
    requires 0 < |w.saved|
    ensures w.visited[0] == rel && fetch(rel).Some?
    ensures w.saved[0] == SavedFile(name(index), fetch(rel).value)
  {
  }

  /** A walk that saved more than one page went on from its first page. */
  lemma WalkGoesOn(fetch: string -> Option<Doc>, absUrl: string, rel: string,
                   name: nat -> string, index: nat, fuel: nat, w: Walk)
    requires w == WalkFrom(fetch, absUrl, rel, name, index, fuel)
    requires 1 < |w.saved|
    ensures GoesOn(fetch, rel, fuel)
  {
  }

  /** The k-th saved file of a walk is named for page `index + k`. */
  lemma {:induction false} WalkNamesAt(fetch: string -> Option<Doc>, absUrl: string, rel: string,
                                       name: nat -> string, index: nat, fuel: nat, w: Walk, k: nat)
    requires w == WalkFrom(fetch, absUrl, rel, name, index, fuel)
    requires k < |w.saved|
    ensures w.saved[k].path == name(index + k)
    decreases k
  {
    if k == 0 {
      WalkSavesFirst(fetch, absUrl, rel, name, index, fuel, w);
    } else {
      WalkGoesOn(fetch, absUrl, rel, name, index, fuel, w);
      var next := NextPageDetails(fetch(rel).value).href;
      var rest := WalkFrom(fetch, absUrl, next, name, index + 1, fuel - 1);
      WalkStep(fetch, absUrl, rel, next, name, index, fuel, w, rest);
      assert |w.saved| == 1 + |rest.saved|;
      WalkNamesAt(fetch, absUrl, next, name, index + 1, fuel - 1, rest, k - 1);
      assert w.saved[k] == rest.saved[k - 1];
      assert index + 1 + (k - 1) == index + k;
    }
  }

  /** The k-th saved file of a walk holds the page fetched for the k-th visited relative URL. */
  lemma {:induction false} WalkFetchedAt(fetch: string -> Option<Doc>, absUrl: string, rel: string,
                                         name: nat -> string, index: nat, fuel: nat, w: Walk, k: nat)
    requires w == WalkFrom(fetch, absUrl, rel, name, index, fuel)
    requires k < |w.saved|
    ensures k < |w.visited| && fetch(w.visited[k]) == Some(w.saved[k].content)
    decreases k
  {
    if k == 0 {
      WalkSavesFirst(fetch, absUrl, rel, name, index, fuel, w);
    } else {
      WalkGoesOn(fetch, absUrl, rel, name, index, fuel, w);
      var next := NextPageDetails(fetch(rel).value).href;
      var rest := WalkFrom(fetch, absUrl, next, name, index + 1, fuel - 1);
      WalkStep(fetch, absUrl, rel, next, name, index, fuel, w, rest);
      assert |w.saved| == 1 + |rest.saved|;
      WalkFetchedAt(fetch, absUrl, next, name, index + 1, fuel - 1, rest, k - 1);
      assert w.saved[k] == rest.saved[k - 1];
      assert w.visited[k] == rest.visited[k - 1];
    }
  }

  lemma WalkSaves(fetch: string -> Option<Doc>, absUrl: string, rel: string,
                  name: nat -> string, index: nat, fuel: nat, w: Walk)
    requires w == WalkFrom(fetch, absUrl, rel, name, index, fuel)
    ensures NumberedFrom(name, index, w)
    ensures SavesFetched(fetch, w)
  {
    forall k | 0 <= k < |w.saved|
      ensures w.saved[k].path == name(index + k)
      ensures fetch(w.visited[k]) == Some(w.saved[k].content)
    {
      WalkNamesAt(fetch, absUrl, rel, name, index, fuel, w, k);
      WalkFetchedAt(fetch, absUrl, rel, name, index, fuel, w, k);
    }
  }

  lemma {:induction false} WalkEnding(fetch: string -> Option<Doc>, absUrl: string, rel: string,
                                      name: nat -> string, index: nat, fuel: nat, w: Walk)
    requires w == WalkFrom(fetch, absUrl, rel, name, index, fuel)
    ensures EndsAsLastPageSays(fetch, absUrl, fuel, w)
    decreases fuel
  {
    if GoesOn(fetch, rel, fuel) {
      var next := NextPageDetails(fetch(rel).value).href;
      var rest := WalkFrom(fetch, absUrl, next, name, index + 1, fuel - 1);
      WalkEnding(fetch, absUrl, next, name, index + 1, fuel - 1, rest);
      WalkStep(fetch, absUrl, rel, next, name, index, fuel, w, rest);
      if |rest.visited| > 0 {
        assert w.visited[|w.visited| - 1] == rest.visited[|rest.visited| - 1];
      }
    }
  }

  lemma {:induction false} WalkBreaks(fetch: string -> Option<Doc>, absUrl: string, rel: string,
                                      name: nat -> string, index: nat, fuel: nat, w: Walk)
    requires w == WalkFrom(fetch, absUrl, rel, name, index, fuel)
    ensures BreakNamesFile(fetch, name, index, w)
    decreases fuel
  {
    if GoesOn(fetch, rel, fuel) {
      var next := NextPageDetails(fetch(rel).value).href;
      var rest := WalkFrom(fetch, absUrl, next, name, index + 1, fuel - 1);
      WalkBreaks(fetch, absUrl, next, name, index + 1, fuel - 1, rest);
      WalkStep(fetch, absUrl, rel, next, name, index, fuel, w, rest);
      if w.status.Aborted? && !w.status.error.FetchFailed? {
        var lw, lr := |w.visited| - 1, |rest.visited| - 1;
        assert lr >= 0 && lw == lr + 1;
        assert w.visited[lw] == rest.visited[lr];
        assert index + lw == index + 1 + lr;
      }
    }
  }

  /** Whatever the walk, if its last visited page was fetched and has no `div.pagination`, the
      walk was abandoned for that reason, naming the file the page was saved to. */
  lemma StopsOnMissingPagination(fetch: string -> Option<Doc>, absUrl: string, rel: string,
                                 name: nat -> string, index: nat, fuel: nat, w: Walk)
    requires w == WalkFrom(fetch, absUrl, rel, name, index, fuel)
    requires 0 < |w.visited|
    requires fetch(w.visited[|w.visited| - 1]).Some?
    requires NextPageDetails(fetch(w.visited[|w.visited| - 1]).value) == NoPaginationDiv
    ensures w.status == Aborted(NoPagination(name(index + |w.visited| - 1)))
  {
    WalkEnding(fetch, absUrl, rel, name, index, fuel, w);
    WalkBreaks(fetch, absUrl, rel, name, index, fuel, w);
  }

  /** Whatever the walk, if its last visited page was fetched and its `a.next` has no `href`,
      the walk was abandoned for that reason, naming the file the page was saved to. */
  lemma StopsOnNextWithoutHref(fetch: string -> Option<Doc>, absUrl: string, rel: string,
                               name: nat -> string, index: nat, fuel: nat, w: Walk)
    requires w == WalkFrom(fetch, absUrl, rel, name, index, fuel)
    requires 0 < |w.visited|
    requires fetch(w.visited[|w.visited| - 1]).Some?
    requires NextPageDetails(fetch(w.visited[|w.visited| - 1]).value) == NextLacksHref
    ensures w.status == Aborted(NextWithoutHref(name(index + |w.visited| - 1)))
  {
    WalkEnding(fetch, absUrl, rel, name, index, fuel, w);
    WalkBreaks(fetch, absUrl, rel, name, index, fuel, w);
  }

  /** The names `fetchAllPages` gives the saved pages: page i is `f'{outputDir}{i}.html'`. */
  function ListingNames(outDir: string): nat -> string
  {
    (i: nat) => ListingPath(outDir, i)
  }

  /** `fetchAllPages(absoluteUrl, relativeUrl, outputDir)`, walking at most `fuel` pages. */
  function FetchAllPages(fetch: string -> Option<Doc>, absUrl: string, rel: string, outDir: string,
                         fuel: nat): (w: Walk)
    ensures fuel > 0 ==> 0 < |w.visited| && w.visited[0] == rel
    ensures |w.saved| <= |w.visited|
    ensures forall k :: 0 <= k < |w.saved| ==> w.saved[k].path == ListingPath(outDir, 1 + k)
    ensures forall k :: 0 <= k < |w.saved| ==> fetch(w.visited[k]) == Some(w.saved[k].content)
  {
    var w := WalkFrom(fetch, absUrl, rel, ListingNames(outDir), 1, fuel);
    WalkSaves(fetch, absUrl, rel, ListingNames(outDir), 1, fuel, w);
    w
  }

  /** The walk saves page k to `{outputDir}{k}.html`, so no saved page overwrites another. */
  lemma FetchAllPagesSavesDistinctFiles(fetch: string -> Option<Doc>, absUrl: string, rel: string,
                                        outDir: string, fuel: nat, w: Walk)
    requires w == FetchAllPages(fetch, absUrl, rel, outDir, fuel)
    ensures forall k :: 0 <= k < |w.saved| ==> w.saved[k].path == ListingPath(outDir, 1 + k)
    ensures DistinctPaths(w.saved)
  {
    forall i, j | 0 <= i < j < |w.saved|
      ensures w.saved[i].path != w.saved[j].path
    {
      ListingPathInjective(outDir, 1 + i, 1 + j);
    }
  }

  /** The list `fetchAllPages` returns: the saved paths when the walk finished, `None`
      when it was abandoned. */
  function Response(w: Walk): (r: Option<seq<string>>)
    requires !w.status.OutOfFuel?
    ensures r.Some? <==> w.status.Finished?
    ensures r.Some? ==> |r.value| == |w.saved|
    ensures r.Some? ==> forall k :: 0 <= k < |w.saved| ==> r.value[k] == w.saved[k].path
  {
    if w.status.Finished? then Some(seq(|w.saved|, k requires 0 <= k < |w.saved| => w.saved[k].path))
    else None
  }

  /** A finished walk answers `[outputDir + "1.html", ..., outputDir + "N.html"]`, N the
      number of pages visited; an abandoned one answers `None`, never the pages saved so far. */
  lemma ResponseIsAllOrNothing(fetch: string -> Option<Doc>, absUrl: string, rel: string,
                               outDir: string, fuel: nat, w: Walk)
    requires w == FetchAllPages(fetch, absUrl, rel, outDir, fuel)
    requires !w.status.OutOfFuel?
    ensures match Response(w)
            case Some(paths) =>
              && w.status.Finished?
              && |paths| == |w.visited|
              && forall k :: 0 <= k < |paths| ==> paths[k] == ListingPath(outDir, 1 + k)
            case None => w.status.Aborted?
  {
    WalkSaves(fetch, absUrl, rel, ListingNames(outDir), 1, fuel, w);
    assert NumberedFrom(ListingNames(outDir), 1, w);
    if w.status.Finished? {
      var paths := Response(w).value;
      forall k | 0 <= k < |paths|
        ensures paths[k] == ListingPath(outDir, 1 + k)
      {
        assert paths[k] == w.saved[k].path;
      }
    }
  }

  /** A chain of relative URLs the site really links, page by page, with no next link on the
      last page: the walk from its head visits exactly these pages and finishes. */
  predicate IsChain(fetch: string -> Option<Doc>, rels: seq<string>)
  {
    && |rels| > 0
    && (forall k :: 0 <= k < |rels| - 1 ==> Links(fetch, rels[k], rels[k + 1]))
    && fetch(rels[|rels| - 1]).Some?
    && NextPageDetails(fetch(rels[|rels| - 1]).value) == LastPage
  }

  /** Following the chain: the walk advances to exactly each page's `a.next` and stops at the
      first page without one, saving every page. */
  lemma {:induction false} WalkFollowsChain(fetch: string -> Option<Doc>, absUrl: string,
                                            rels: seq<string>, name: nat -> string, index: nat, fuel: nat,
                                            w: Walk)
    requires IsChain(fetch, rels)
    requires |rels| <= fuel
    requires w == WalkFrom(fetch, absUrl, rels[0], name, index, fuel)
    ensures w.status == Finished && w.visited == rels && |w.saved| == |rels|
    decreases |rels|
  {
    if |rels| > 1 {
      var tail := rels[1..];
      assert IsChain(fetch, tail) by {
        forall k | 0 <= k < |tail| - 1
          ensures Links(fetch, tail[k], tail[k + 1])
        {
          assert Links(fetch, rels[k + 1], rels[k + 2]);
        }
      }
      assert Links(fetch, rels[0], rels[1]);
      var rest := WalkFrom(fetch, absUrl, tail[0], name, index + 1, fuel - 1);
      WalkFollowsChain(fetch, absUrl, tail, name, index + 1, fuel - 1, rest);
      WalkStep(fetch, absUrl, rels[0], rels[1], name, index, fuel, w, rest);
      assert [rels[0]] + tail == rels;
    }
  }

  /** A page on the chain that cannot be fetched sinks the whole walk, however many pages
      before it were saved. */
  lemma {:induction false} WalkAbortsOnFailedFetch(fetch: string -> Option<Doc>, absUrl: string,
                                                   rels: seq<string>, name: nat -> string, index: nat, fuel: nat,
                                                   w: Walk)
    requires 0 < |rels| <= fuel
    requires forall k :: 0 <= k < |rels| - 1 ==> Links(fetch, rels[k], rels[k + 1])
    requires fetch(rels[|rels| - 1]) == None
    requires w == WalkFrom(fetch, absUrl, rels[0], name, index, fuel)
    ensures && w.status == Aborted(FetchFailed(absUrl + rels[|rels| - 1]))
            && w.visited == rels
            && |w.saved| == |rels| - 1
    decreases |rels|
  {
    if |rels| > 1 {
      var tail := rels[1..];
      forall k | 0 <= k < |tail| - 1
        ensures Links(fetch, tail[k], tail[k + 1])
      {
        assert Links(fetch, rels[k + 1], rels[k + 2]);
      }
      assert Links(fetch, rels[0], rels[1]);
      var rest := WalkFrom(fetch, absUrl, tail[0], name, index + 1, fuel - 1);
      WalkAbortsOnFailedFetch(fetch, absUrl, tail, name, index + 1, fuel - 1, rest);
      WalkStep(fetch, absUrl, rels[0], rels[1], name, index, fuel, w, rest);
      assert [rels[0]] + tail == rels;
    }
  }
}

=== FILE: pipeline.dfy ===
/** How the passes fit together through the output directory: the listing pass reads back
    exactly the pages the walk fetched, and the product pass never overwrites them. */
module Pipeline {
  import opened Wrappers
  import opened Fetcher
  import opened Records
  import opened Text
  import opened Dom
  import opened Pagination
  import opened Listing
  import opened Products
  import opened Export

  /** A listing page name and a product page name in the same directory never coincide: the
      first has a digit right after the directory, the second a `P`. */
  lemma ListingAndProductPathsDiffer(outDir: string, a: nat, b: nat)
    ensures ListingPath(outDir, a) != ProductPath(outDir, b)
  {
    var l, p := ListingPath(outDir, a), ProductPath(outDir, b);
    NatToStringDigits(a);
    assert l[|outDir|] == NatToString(a)[0];
    assert p[|outDir|] == 'P';
  }

  /** After a finished walk, the directory holds under the k-th returned path the k-th saved
      page, whatever it held before. */
  lemma CrawledPagesReadBack(fetch: string -> Option<Doc>, absUrl: string, rel: string,
                             outDir: string, fuel: nat, store: Store, w: Walk)
    requires w == FetchAllPages(fetch, absUrl, rel, outDir, fuel)
    requires w.status.Finished?
    ensures var paths := Response(w).value;
            var disk := SaveAll(store, w.saved);
            forall k :: 0 <= k < |paths| ==> paths[k] in disk && disk[paths[k]] == w.saved[k].content
  {
    FetchAllPagesSavesDistinctFiles(fetch, absUrl, rel, outDir, fuel, w);
    forall k | 0 <= k < |w.saved|
      ensures w.saved[k].path in SaveAll(store, w.saved)
      ensures SaveAll(store, w.saved)[w.saved[k].path] == w.saved[k].content
    {
      SaveAllReadsBack(store, w.saved, k);
    }
  }

  /** So the listing pass opens, under the k-th returned path, the page fetched for the k-th
      visited URL. */
  lemma CrawledPagesAreFetchedPages(fetch: string -> Option<Doc>, absUrl: string, rel: string,
                                    outDir: string, fuel: nat, store: Store, w: Walk)
    requires w == FetchAllPages(fetch, absUrl, rel, outDir, fuel)
    requires w.status.Finished?
    ensures var paths := Response(w).value;
            var disk := SaveAll(store, w.saved);
            && AllSaved(disk, paths)
            && forall k :: 0 <= k < |paths| ==> Some(disk[paths[k]]) == fetch(w.visited[k])
  {
    CrawledPagesReadBack(fetch, absUrl, rel, outDir, fuel, store, w);
    WalkSaves(fetch, absUrl, rel, ListingNames(outDir), 1, fuel, w);
    assert SavesFetched(fetch, w);
  }

  /** No file of the product pass lands on a listing page's name. */
  lemma ProductPassAvoids(fetch: string -> Option<Doc>, urls: seq<string>, outDir: string,
                          page: nat, products: seq<SavedFile>)
    requires products == FetchAllProductInformation(fetch, urls, outDir).saved
    ensures forall i :: 0 <= i < |products| ==> products[i].path != ListingPath(outDir, page)
  {
    forall i | 0 <= i < |products|
      ensures products[i].path != ListingPath(outDir, page)
    {
      ListingAndProductPathsDiffer(outDir, page, 1 + i);
    }
  }

  /** The product pass's files leave every listing page of the walk as it was. */
  lemma ProductPassKeepsListingPages(fetch: string -> Option<Doc>, absUrl: string, rel: string,
                                     outDir: string, fuel: nat, urls: seq<string>, disk: Store,
                                     w: Walk, products: seq<SavedFile>)
    requires w == FetchAllPages(fetch, absUrl, rel, outDir, fuel)
    requires w.status.Finished?
    requires products == FetchAllProductInformation(fetch, urls, outDir).saved
    ensures var paths := Response(w).value;
            forall k :: 0 <= k < |paths| && paths[k] in disk ==>
              paths[k] in SaveAll(disk, products) && SaveAll(disk, products)[paths[k]] == disk[paths[k]]
  {
    var paths := Response(w).value;
    FetchAllPagesSavesDistinctFiles(fetch, absUrl, rel, outDir, fuel, w);
    forall k | 0 <= k < |paths| && paths[k] in disk
      ensures paths[k] in SaveAll(disk, products) && SaveAll(disk, products)[paths[k]] == disk[paths[k]]
    {
      assert paths[k] == ListingPath(outDir, 1 + k);
      ProductPassAvoids(fetch, urls, outDir, 1 + k, products);
      SaveAllKeeps(disk, products, paths[k]);
    }
  }

  /** A failed crawl stops the script at the export: the listing pass answers `None`, and
      `generateProductDetails(None)` raises (also `None` here), so the product pass is never
      reached. */
  lemma FailedCrawlPropagates(fetch: string -> Option<Doc>, absUrl: string, rel: string,
                              outDir: string, fuel: nat, store: Store, w: Walk)
    requires w == FetchAllPages(fetch, absUrl, rel, outDir, fuel)
    requires w.status.Aborted?
    ensures ExtractContentFromPages(store, Response(w)) == None
    ensures GenerateProductDetails(ExtractContentFromPages(store, Response(w))) == None
  {
  }

  /** A listing page whose three attempts all raise abandons the crawl right there: the
      abandon names the full URL, nothing is saved and `fetchAllPages` answers `None`. */
  lemma UnreachableListingAbortsCrawl(browser: string -> Browser, absUrl: string, rel: string,
                                      outDir: string, fuel: nat, w: Walk)
    requires fuel > 0
    requires forall k :: 0 <= k < MaxAttempts ==> browser(absUrl + rel)(k) == Raised
    requires w == FetchAllPages(Site(browser, absUrl), absUrl, rel, outDir, fuel)
    ensures w.status == Aborted(FetchFailed(absUrl + rel))
    ensures w.visited == [rel] && w.saved == []
    ensures Response(w) == None
  {
    assert !LoadsWithin(browser(absUrl + rel), MaxAttempts);
  }

  /** A product URL whose three attempts all raise fails the whole product pass, and the
      detail pass that is given its result answers `None` too. */
  lemma UnreachableProductFailsDetails(browser: string -> Browser, absUrl: string,
                                       urls: seq<string>, outDir: string, store: Store, i: nat)
    requires i < |urls|
    requires forall k :: 0 <= k < MaxAttempts ==> browser(absUrl + urls[i])(k) == Raised
    ensures FetchAllProductInformation(Site(browser, absUrl), urls, outDir).response == None
    ensures ExtractProductInformation(store, FetchAllProductInformation(Site(browser, absUrl), urls, outDir).response)
              == None
  {
    assert !LoadsWithin(browser(absUrl + urls[i]), MaxAttempts);
    assert !AllFetch(Site(browser, absUrl), urls);
  }

  /** When every product URL fetches and every fetched page parses, the detail pass given the
      product pass's list reads back exactly those pages: record k, keyed `k + 1`, is the
      detail of the page fetched for the k-th URL. */
  lemma FetchedProductsReadBack(fetch: string -> Option<Doc>, urls: seq<string>, outDir: string,
                                disk: Store, r: ProductFetch)
    requires r == FetchAllProductInformation(fetch, urls, outDir)
    requires forall k :: 0 <= k < |urls| ==> fetch(urls[k]).Some? && !DetailRaises(fetch(urls[k]).value)
    ensures r.response.Some?
    ensures var recs := ExtractProductInformation(SaveAll(disk, r.saved), r.response);
            && recs.Some? && |recs.value| == |urls|
            && forall k :: 0 <= k < |urls| ==>
                 recs.value[k] == Entry(k + 1, ExtractDetail(fetch(urls[k]).value).value)
  {
    assert AllFetch(fetch, urls);
    var pages := r.response.value;
    var store := SaveAll(disk, r.saved);
    ProductPathsDistinct(fetch, urls, outDir, r);
    forall k | 0 <= k < |pages|
      ensures pages[k] in store && store[pages[k]] == fetch(urls[k]).value
    {
      SaveAllReadsBack(disk, r.saved, k);
    }
    AllParse(store, pages);
    var recs := ExtractProductInformation(store, r.response).value;
    forall k | 0 <= k < |urls|
      ensures recs[k] == Entry(k + 1, ExtractDetail(fetch(urls[k]).value).value)
    {
      assert Values(recs)[k] == recs[k].value;
    }
  }
}

=== FILE: products.dfy ===
/** `fetchAllProductInformation` and `extractProductInformation`: the second pass, one
    fetch per product URL saved as `{outputDir}P-{i}.html`, then three free-text fields
    per detail page, skipping pages that fail to parse. */
module Products {
  import opened Wrappers
  import opened Text
  import opened Dom
  import opened Records

  /** `f'{outputDir}P-{pageIndex}.html'` */
  function ProductPath(outDir: string, index: nat): (p: string)
    ensures |outDir| + 7 < |p|
    ensures p[..|outDir|] == outDir && p[|outDir|..|outDir| + 2] == "P-" && p[|p| - 5..] == ".html"
  {
    outDir + "P-" + NatToString(index) + ".html"
  }

  /** Between `{outputDir}P-` and `.html`, a product file name holds the product number in decimal. */
  lemma ProductPathDecodes(outDir: string, index: nat)
    ensures var p := ProductPath(outDir, index);
            var digits := p[|outDir| + 2..|p| - 5];
            AllDigits(digits) && DecimalValue(digits) == index
  {
    var p := ProductPath(outDir, index);
    DecimalRoundTrip(index);
    assert p[|outDir| + 2..|p| - 5] == NatToString(index);
  }

  /** Different product numbers give different product file names. */
  lemma ProductPathInjective(outDir: string, a: nat, b: nat)
    requires a != b
    ensures ProductPath(outDir, a) != ProductPath(outDir, b)
  {
    ProductPathDecodes(outDir, a);
    ProductPathDecodes(outDir, b);
  }

  /** The result of the per-product fetch: the list of saved paths (or `None`) and the files
      written on the way, which stay on disk even when the pass fails. */
  datatype ProductFetch = ProductFetch(response: Option<seq<string>>, saved: seq<SavedFile>)

  /** Every product URL can be fetched. */
  predicate AllFetch(fetch: string -> Option<Doc>, urls: seq<string>)
  {
    forall k :: 0 <= k < |urls| ==> fetch(urls[k]).Some?
  }

  /** Fetching `urls` in order, numbering saved files from `index`. */
  function FetchProductsFrom(fetch: string -> Option<Doc>, urls: seq<string>,
                             outDir: string, index: nat): (r: ProductFetch)
    ensures r.response.Some? <==> AllFetch(fetch, urls)
    ensures r.response.Some? ==> |r.response.value| == |urls| == |r.saved|
    ensures r.response.Some? ==> forall k :: 0 <= k < |urls| ==> r.response.value[k] == r.saved[k].path
    ensures r.response.None? ==> |r.saved| < |urls|
    ensures |r.saved| <= |urls|
    decreases |urls|
  {
    if |urls| == 0 then ProductFetch(Some([]), [])
    else
      match fetch(urls[0])
      case None => ProductFetch(None, [])
      case Some(content) =>
        var file := SavedFile(ProductPath(outDir, index), content);
        var later := urls[1..];
        var rest := FetchProductsFrom(fetch, later, outDir, index + 1);
        assert AllFetch(fetch, urls) <==> AllFetch(fetch, later) by {
          assert forall k :: 1 <= k < |urls| ==> later[k - 1] == urls[k];
        }
        ProductFetch(if rest.response.Some? then Some([file.path] + rest.response.value) else None,
                     [file] + rest.saved)
  }

  /** The files written, in order: the k-th is `{outputDir}P-{index+k}.html` and holds the page
      fetched for the k-th URL. */
  lemma {:induction false} FetchProductsSaves(fetch: string -> Option<Doc>, urls: seq<string>,
                                              outDir: string, index: nat, k: nat)
    requires k < |FetchProductsFrom(fetch, urls, outDir, index).saved|
    ensures k < |urls| && fetch(urls[k]).Some?
    ensures FetchProductsFrom(fetch, urls, outDir, index).saved[k]
              == SavedFile(ProductPath(outDir, index + k), fetch(urls[k]).value)
    decreases k
  {
    var r := FetchProductsFrom(fetch, urls, outDir, index);
    var later := urls[1..];
    var rest := FetchProductsFrom(fetch, later, outDir, index + 1);
    assert r.saved == [r.saved[0]] + rest.saved;
    if k > 0 {
      FetchProductsSaves(fetch, later, outDir, index + 1, k - 1);
      assert index + 1 + (k - 1) == index + k;
      assert later[k - 1] == urls[k];
    }
  }

  /** Every written file at once: file k is `{outputDir}P-{index+k}.html` with the k-th URL's page. */
  lemma FetchProductsSavedFiles(fetch: string -> Option<Doc>, urls: seq<string>, outDir: string,
                                index: nat, r: ProductFetch)
    requires r == FetchProductsFrom(fetch, urls, outDir, index)
    ensures forall k :: 0 <= k < |r.saved| ==> k < |urls| && fetch(urls[k]) == Some(r.saved[k].content)
    ensures forall k :: 0 <= k < |r.saved| ==> r.saved[k].path == ProductPath(outDir, index + k)
  {
    forall k | 0 <= k < |r.saved|
      ensures k < |urls| && fetch(urls[k]) == Some(r.saved[k].content)
      ensures r.saved[k].path == ProductPath(outDir, index + k)
    {
      FetchProductsSaves(fetch, urls, outDir, index, k);
    }
  }

  /** On failure, the first URL that cannot be fetched is the one after the saved files. */
  lemma {:induction false} FetchProductsStopsAtFailure(fetch: string -> Option<Doc>, urls: seq<string>,
                                                       outDir: string, index: nat)
    requires FetchProductsFrom(fetch, urls, outDir, index).response.None?
    ensures var n := |FetchProductsFrom(fetch, urls, outDir, index).saved|;
            n < |urls| && fetch(urls[n]).None?
    decreases |urls|
  {
    if fetch(urls[0]).Some? {
      var later := urls[1..];
      FetchProductsStopsAtFailure(fetch, later, outDir, index + 1);
      var n := |FetchProductsFrom(fetch, later, outDir, index + 1).saved|;
      assert later[n] == urls[n + 1];
    }
  }

  /** `fetchAllProductInformation(urls, absoluteUrl, outputDir)`, where `fetch` maps a product URL
      to the page fetched from `absoluteUrl` joined with it (`Fetcher.Site`). The k-th file
      written is `{outputDir}P-{k+1}.html` and holds the k-th URL's page; the list of paths
      comes back only when every URL fetched. */
  function FetchAllProductInformation(fetch: string -> Option<Doc>, urls: seq<string>,
                                      outDir: string): (r: ProductFetch)
    ensures r.response.Some? <==> AllFetch(fetch, urls)
    ensures r.response.Some? ==> |r.response.value| == |urls| == |r.saved|
    ensures r.response.Some? ==> forall k :: 0 <= k < |urls| ==> r.response.value[k] == r.saved[k].path
    ensures forall k :: 0 <= k < |r.saved| ==> k < |urls| && fetch(urls[k]) == Some(r.saved[k].content)
    ensures forall k :: 0 <= k < |r.saved| ==> r.saved[k].path == ProductPath(outDir, 1 + k)
  {
    var r := FetchProductsFrom(fetch, urls, outDir, 1);
    FetchProductsSavedFiles(fetch, urls, outDir, 1, r);
    r
  }

  /** All or nothing: the paths `{outputDir}P-1.html` ... `{outputDir}P-N.html` for N URLs when
      every fetch succeeds, and `None` (never a prefix) as soon as one fails. */
  lemma ProductFetchAllOrNothing(fetch: string -> Option<Doc>, urls: seq<string>,
                                 outDir: string)
    ensures var r := FetchAllProductInformation(fetch, urls, outDir);
            match r.response
            case Some(paths) =>
              && |paths| == |urls|
              && forall k :: 0 <= k < |urls| ==> paths[k] == ProductPath(outDir, 1 + k)
            case None => exists k :: 0 <= k < |urls| && fetch(urls[k]).None?
  {
    var r := FetchAllProductInformation(fetch, urls, outDir);
    if r.response.Some? {
      assert forall k :: 0 <= k < |urls| ==> r.response.value[k] == r.saved[k].path;
    } else {
      FetchProductsStopsAtFailure(fetch, urls, outDir, 1);
    }
  }

  /** Product pages never share a file: each fetched page survives the pass. */
  lemma ProductPathsDistinct(fetch: string -> Option<Doc>, urls: seq<string>, outDir: string,
                             r: ProductFetch)
    requires r == FetchAllProductInformation(fetch, urls, outDir)
    ensures DistinctPaths(r.saved)
  {
    forall i, j | 0 <= i < j < |r.saved|
      ensures r.saved[i].path != r.saved[j].path
    {
      ProductPathInjective(outDir, 1 + i, 1 + j);
    }
  }

  /** One row of `ProductDeSpRe.csv`. */
  datatype Detail = Detail(description: string, specification: string, review: string)

  /** Extraction of a detail page raises: the reviews container, either description block or
      the `ul` inside it is missing. */
  predicate DetailRaises(doc: Doc)
  {
    || doc.reviews.None?
    || doc.description.None? || doc.description.value.items.None?
    || doc.specification.None? || doc.specification.value.items.None?
  }

  /** The record for one detail page, or `None` where `extractProductInformation` raises.
      Each field joins its texts with nothing in between. */
  function ExtractDetail(doc: Doc): (r: Option<Detail>)
    ensures r.None? <==> DetailRaises(doc)
    ensures r.Some? ==>
              && r.value.description == Concat(doc.description.value.items.value)
              && r.value.specification == Concat(doc.specification.value.items.value)
              && r.value.review == Concat(doc.reviews.value)
  {
    if DetailRaises(doc) then None
    else
      var desc, spec, revs := doc.description.value.items.value, doc.specification.value.items.value,
                              doc.reviews.value;
      Some(Detail(Concat(desc), Concat(spec), Concat(revs)))
  }

  /** The page at `path` can be opened and parsed. */
  predicate Parses(store: Store, path: string)
  {
    path in store && !DetailRaises(store[path])
  }

  /** The records of the pages that parse, in page order; failing pages leave no trace. */
  function Survivors(store: Store, pages: seq<string>): (ds: seq<Detail>)
    ensures |ds| <= |pages|
  {
    if |pages| == 0 then []
    else
      var last := pages[|pages| - 1];
      Survivors(store, pages[..|pages| - 1])
        + (if Parses(store, last) then [ExtractDetail(store[last]).value] else [])
  }

  /** Number of pages that parse. */
  function ParsedCount(store: Store, pages: seq<string>): nat
  {
    if |pages| == 0 then 0
    else ParsedCount(store, pages[..|pages| - 1]) + (if Parses(store, pages[|pages| - 1]) then 1 else 0)
  }

  /** `extractProductInformation(pages)` over the saved pages in `store`. Only a missing list
      (the `None` of a failed fetch pass) fails the call; a page that cannot be opened or parsed
      is skipped and the numbering closes over it. */
  function ExtractProductInformation(store: Store, pages: Option<seq<string>>): (r: Option<RecordSet<Detail>>)
    ensures r.Some? <==> pages.Some?
    ensures r.Some? ==> Dense(r.value) && |r.value| <= |pages.value|
    ensures r.Some? ==> Values(r.value) == Survivors(store, pages.value)
  {
    if pages.None? then None
    else
      var ds := Survivors(store, pages.value);
      NumberFromOneIsDense(ds);
      Some(Number(ds, 1))
  }

  /** One record per page that parses, and no more. */
  lemma {:induction false} SurvivorsCount(store: Store, pages: seq<string>)
    ensures |Survivors(store, pages)| == ParsedCount(store, pages)
  {
    if |pages| > 0 {
      SurvivorsCount(store, pages[..|pages| - 1]);
    }
  }

  /** A page that fails adds nothing; one that parses adds its record, keyed right after the
      records before it. */
  lemma ExtractNextDetailPage(store: Store, pages: seq<string>, page: string)
    ensures var before := ExtractProductInformation(store, Some(pages)).value;
            var after := ExtractProductInformation(store, Some(pages + [page])).value;
            if Parses(store, page)
            then after == before + [Entry(|before| + 1, ExtractDetail(store[page]).value)]
            else after == before
  {
    var all := pages + [page];
    assert all[..|all| - 1] == pages;
    var ds := Survivors(store, pages);
    if Parses(store, page) {
      NumberAppend(ds, [ExtractDetail(store[page]).value], 1);
    } else {
      assert Survivors(store, all) == ds;
    }
  }

  /** When every page parses, record k is page k's. */
  lemma {:induction false} AllParse(store: Store, pages: seq<string>)
    requires forall k :: 0 <= k < |pages| ==> Parses(store, pages[k])
    ensures |Survivors(store, pages)| == |pages|
    ensures forall k :: 0 <= k < |pages| ==>
              && pages[k] in store && ExtractDetail(store[pages[k]]).Some?
              && Survivors(store, pages)[k] == ExtractDetail(store[pages[k]]).value
  {
    if |pages| > 0 {
      var init := pages[..|pages| - 1];
      AllParse(store, init);
      var ds := Survivors(store, pages);
      forall k | 0 <= k < |pages|
        ensures ds[k] == ExtractDetail(store[pages[k]]).value
      {
        if k < |init| {
          assert pages[k] == init[k];
        }
      }
    }
  }

  /** When no page parses, the call still succeeds, with no records. */
  lemma {:induction false} NoneParse(store: Store, pages: seq<string>)
    requires forall k :: 0 <= k < |pages| ==> !Parses(store, pages[k])
    ensures ExtractProductInformation(store, Some(pages)) == Some([])
  {
    if |pages| > 0 {
      var init := pages[..|pages| - 1];
      NoneParse(store, init);
    }
  }
}

=== FILE: records.dfy ===
/** The record sets the extractors return: Python dicts keyed by a running product
    index, kept here as the ordered list of (key, record) pairs that dict iteration yields. */
module Records {

  datatype Entry<T> = Entry(key: nat, value: T)

  type RecordSet<T> = seq<Entry<T>>

  /** Keys run 1, 2, ..., N in insertion order. */
  predicate Dense<T>(rs: RecordSet<T>)
  {
    forall k :: 0 <= k < |rs| ==> rs[k].key == k + 1
  }

  /** The records of a record set, in insertion order (`dict.values()`). */
  function Values<T>(rs: RecordSet<T>): (vs: seq<T>)
    ensures |vs| == |rs|
    ensures forall k :: 0 <= k < |rs| ==> vs[k] == rs[k].value
  {
    if |rs| == 0 then [] else [rs[0].value] + Values(rs[1..])
  }

  /** Inserts `values` in order under the keys `start`, `start + 1`, ...: the scraper's
      `response[productIndex] = ...; productIndex += 1`. */
  function Number<T>(values: seq<T>, start: nat): (rs: RecordSet<T>)
    ensures |rs| == |values|
    ensures forall k :: 0 <= k < |rs| ==> rs[k] == Entry(start + k, values[k])
    decreases |values|
  {
    if |values| == 0 then [] else [Entry(start, values[0])] + Number(values[1..], start + 1)
  }

  function Keys<T>(rs: RecordSet<T>): set<nat>
  {
    set k | 0 <= k < |rs| :: rs[k].key
  }

  /** The key set of a dense record set is exactly 1..N: no gaps and no duplicates. */
  lemma DenseKeys<T>(rs: RecordSet<T>)
    requires Dense(rs)
    ensures forall n: nat :: n in Keys(rs) <==> 1 <= n <= |rs|
  {
    forall n: nat | 1 <= n <= |rs|
      ensures n in Keys(rs)
    {
      assert rs[n - 1].key == n;
    }
  }

  /** Numbering from 1 gives a dense record set that holds the values in order. */
  lemma NumberFromOneIsDense<T>(values: seq<T>)
    ensures Dense(Number(values, 1))
    ensures Values(Number(values, 1)) == values
  {
  }

  /** Numbering a longer list extends the numbering of its prefix: the added values take the
      keys that follow on. */
  lemma {:induction false} NumberAppend<T>(values: seq<T>, more: seq<T>, start: nat)
    ensures Number(values + more, start) == Number(values, start) + Number(more, start + |values|)
  {
    var l, r := Number(values + more, start), Number(values, start) + Number(more, start + |values|);
    assert |l| == |r|;
    forall k | 0 <= k < |l|
      ensures l[k] == r[k]
    {
      if k < |values| {
        assert (values + more)[k] == values[k];
      } else {
        assert (values + more)[k] == more[k - |values|];
      }
    }
  }
}

=== FILE: text.dfy ===
/** String helpers the scraper relies on: decimal rendering of the page counter
    (Python's f-string of an int) and separator-free concatenation of element texts. */
module Text {

  predicate IsDigit(c: char)
  {
    '0' <= c <= '9'
  }

  predicate AllDigits(s: string)
  {
    forall i :: 0 <= i < |s| ==> IsDigit(s[i])
  }

  function DigitChar(d: nat): (c: char)
    requires d < 10
    ensures IsDigit(c)
    ensures c as int - '0' as int == d
  {
    ('0' as int + d) as char
  }

  function DigitValue(c: char): nat
    requires IsDigit(c)
  {
    c as int - '0' as int
  }

  /** Decimal rendering of a natural number, as `str(n)` / `f'{n}'` produces it. */
  function NatToString(n: nat): (s: string)
    ensures 1 <= |s|
  {
    if n < 10 then [DigitChar(n)] else NatToString(n / 10) + [DigitChar(n % 10)]
  }

  /** The rendering is made of decimal digits only and has no leading zero. */
  lemma {:induction false} NatToStringDigits(n: nat)
    ensures AllDigits(NatToString(n))
    ensures NatToString(n)[0] == '0' ==> n == 0
  {
    if n >= 10 {
      NatToStringDigits(n / 10);
      var s := NatToString(n);
      assert s == NatToString(n / 10) + [DigitChar(n % 10)];
      assert s[0] == NatToString(n / 10)[0];
    }
  }

  /** Value of a string of decimal digits; the reference reading of `NatToString`. */
  function DecimalValue(s: string): nat
    requires AllDigits(s)
  {
    if |s| == 0 then 0 else DecimalValue(s[..|s| - 1]) * 10 + DigitValue(s[|s| - 1])
  }

  /** Rendering then reading back gives the number: the rendering loses nothing. */
  lemma {:induction false} DecimalRoundTrip(n: nat)
    ensures AllDigits(NatToString(n)) && DecimalValue(NatToString(n)) == n
  {
    var s := NatToString(n);
    NatToStringDigits(n);
    if n >= 10 {
      DecimalRoundTrip(n / 10);
      assert s[..|s| - 1] == NatToString(n / 10);
    }
  }

  /** Distinct numbers render differently. */
  lemma NatToStringInjective(a: nat, b: nat)
    requires NatToString(a) == NatToString(b)
    ensures a == b
  {
    DecimalRoundTrip(a);
    DecimalRoundTrip(b);
  }

  /** `prefix + str(a) + suffix` determines `a`: numbered file names never collide. */
  lemma NumberedNameInjective(prefix: string, a: nat, b: nat, suffix: string)
    requires prefix + NatToString(a) + suffix == prefix + NatToString(b) + suffix
    ensures a == b
  {
    var x, y := prefix + NatToString(a) + suffix, prefix + NatToString(b) + suffix;
    assert |NatToString(a)| == |NatToString(b)|;
    assert NatToString(a) == x[|prefix|..|prefix| + |NatToString(a)|];
    assert NatToString(b) == y[|prefix|..|prefix| + |NatToString(b)|];
    NatToStringInjective(a, b);
  }

  /** Sum of the lengths of the texts. */
  function TotalLength(texts: seq<string>): nat
  {
    if |texts| == 0 then 0 else TotalLength(texts[..|texts| - 1]) + |texts[|texts| - 1]|
  }

  /** Texts joined in order with nothing between them: the scraper's
      `acc = ''; for t in texts: acc = acc + t`. The joined text is exactly as long as its
      parts together. */
  function Concat(texts: seq<string>): (r: string)
    ensures |r| == TotalLength(texts)
  {
    if |texts| == 0 then "" else Concat(texts[..|texts| - 1]) + texts[|texts| - 1]
  }

  /** Joining a single text gives that text. */
  lemma ConcatSingle(t: string)
    ensures Concat([t]) == t
  {
    assert [t][..0] == [];
  }

  /** Concatenation distributes over joining the lists: no separator is ever inserted. */
  lemma {:induction false} ConcatAppend(xs: seq<string>, ys: seq<string>)
    ensures Concat(xs + ys) == Concat(xs) + Concat(ys)
    decreases |ys|
  {
    if |ys| == 0 {
      assert xs + ys == xs;
    } else {
      var ys' := ys[..|ys| - 1];
      assert (xs + ys)[..|xs + ys| - 1] == xs + ys';
      ConcatAppend(xs, ys');
    }
  }
}

=== FILE: wrappers.dfy ===
/** Option, standing for Python's "value or None" throughout the model. */
module Wrappers {

  datatype Option<+T> = None | Some(value: T) {

    /** The value, or `default` when there is none (Python's `x if x is not None else default`). */
    function GetOr(default: T): (r: T)
      ensures Some? ==> r == value
      ensures None? ==> r == default
    {
      match this
      case Some(v) => v
      case None => default
    }
  }
}
